=== FILE: README.md ===
# Linux keg relocation, modelled in Dafny

When Homebrew pours a bottle on Linux at a prefix other than the one it was
built for, `Keg#relocate_dynamic_linkage` rewrites every dynamically linked
ELF file of the keg. It works in these steps:

- It rewrites each file's RPATH. The `:`-separated entries are moved from
  the old prefix to the new one.
- It drops the entries that point outside the new prefix and are not
  loader-relative (`$ORIGIN`).
- It makes sure the new prefix's `lib` directory (`"#{new_prefix}/lib"`) is
  listed. This is the `lib` directory of the installation prefix, shared by
  every keg under it, not a directory of the keg itself.
- It puts GCC's `lib/gcc/current` directory in front when some entry names a
  versioned GCC library directory.
- It rewrites the interpreter (the `PT_INTERP` path): to the new prefix's
  `lib/ld.so` when that file is readable, otherwise by replacing the first
  occurrence of the old prefix, wherever it lies, with the new prefix.
- It passes to `patch!` only the values that changed.

Files are found by `Keg#elf_files`. This walks the keg and keeps one path per
inode, so that hard links are not patched twice. glibc and patchelf kegs are
never touched. `Keg#detect_cxx_stdlibs` runs over the same files and reports
which C++ standard libraries (libc++, libstdc++) they link.

The project has five modules:

- `Wrappers`: `Option`, standing for Ruby's `nil`-or-value.
- `Text`: the Ruby string operations involved, with Ruby's semantics.
  - `String#sub` with a string pattern replaces the first occurrence,
    wherever it is.
  - `String#split(":")` drops trailing empty fields.
  - `Array#join`.
  - Prefix, suffix and substring tests.
- `Subsequences`: "`a` keeps some elements of `b` in `b`'s order", given by an
  index witness.
- `RpathPolicy`: the values `change_rpath` computes, as functions, with lemmas
  about them.
- `KegRelocate`: the traversal records and the four Ruby methods.
  - `ElfFiles`, `ChangeRpath`, `RelocateDynamicLinkage` and `DetectCxxStdlibs`
    are methods with the source's loops, sets and hash.
  - Each is proved equal to a specification function, or characterised by
    if-and-only-if postconditions.
  - Lemmas state the dedupe and once-per-inode guarantees.

Each `patch!` call is returned as a `PatchCall` record, in call order. A
field set to `None` means Ruby passed `nil`.

Where the code behaves differently from a reading of its intent, the model
follows the code:

- **Substitution is not anchored.** Each entry gets `String#sub`, which
  replaces the first occurrence of the old prefix anywhere in the entry, not
  only a leading one. So a `$ORIGIN/...` entry that happens to contain the
  old prefix is rewritten too (`OriginEntrySurvives` needs the old prefix to
  be absent).
- **Duplicate entries are kept.** Entries already in the RPATH are not
  deduplicated: the filter keeps every copy of a relocated entry
  (`KeepRelocated`). Only the new prefix's `lib` directory is guarded against
  a second copy.
- **Relocation is not idempotent.** "Relocating again" here means a second
  pass in place, with the old prefix equal to the new one. That pass gives the
  same RPATH back when the GCC step did not fire
  (`RelocatedRpathIsFixedPoint`). It also does so when the step fired but
  GCC's directory is not relocated, that is, it lies outside the new prefix and
  does not start with `$ORIGIN` (`GccFiredYetFixedPoint`): the filter drops the
  directory and the GCC step puts it back in front. When GCC's directory lies
  under the new prefix, the next pass prepends it again (`GccStepRepeats`).
  That is the ordinary pour case, where the new prefix is `HOMEBREW_PREFIX`
  itself.
  Applying the same old-to-new mapping twice is not idempotent either:
  `String#sub` replaces only the first occurrence, so `@@P@@/x/@@P@@` becomes
  `/new/x/@@P@@` and then `/new/x/new`.
- **`patch!` is always called.** It is called for every dynamic ELF file,
  even when both arguments are `nil`.

## Model

| member | source | states |
|---|---|---|
| Text.IndexFrom | Library/Homebrew/extend/os/linux/keg_relocate.rb:30 | the index `sub` rewrites is the first occurrence of the pattern at or after the start index; `None` exactly when there is no occurrence there |
| Text.ReplaceFirst | Library/Homebrew/extend/os/linux/keg_relocate.rb:30 | `sub` leaves the string alone when the pattern does not occur; otherwise it replaces the occurrence at the first index where the pattern occurs, by `r`, and keeps what is before and after it |
| Text.Split | Library/Homebrew/extend/os/linux/keg_relocate.rb:29 | `split(":")` yields fields free of the separator whose last field is non-empty (trailing empty fields dropped) |
| Text.JoinEnds | Library/Homebrew/extend/os/linux/keg_relocate.rb:48 | `join(":")` of no fields is empty; otherwise the joined string starts with the first field and ends with the last |
| Text.SplitJoin | Library/Homebrew/extend/os/linux/keg_relocate.rb:29-48 | `split(":")` undoes `join(":")` for `:`-free fields whose last field is non-empty |
| Text.JoinSplit | Library/Homebrew/extend/os/linux/keg_relocate.rb:29-48 | `join(":")` after `split(":")` gives a prefix of the string followed only by separators, and that prefix does not itself end in a separator: exactly the trailing separators are lost |
| RpathPolicy.Substitute | Library/Homebrew/extend/os/linux/keg_relocate.rb:30 | one entry out per entry in, each being the first-occurrence replacement of the old prefix in the corresponding old entry |
| RpathPolicy.KeepRelocated | Library/Homebrew/extend/os/linux/keg_relocate.rb:31 | every kept entry starts with the new prefix or `$ORIGIN` and came from the input; every input entry of that shape is kept, as many times as it occurs, and no other entry is kept at all |
| RpathPolicy.KeepRelocatedInOrder | Library/Homebrew/extend/os/linux/keg_relocate.rb:31 | the filter keeps the relative order of the entries |
| RpathPolicy.SurvivingEntries | Library/Homebrew/extend/os/linux/keg_relocate.rb:29-31 | before the insertions, every entry is the substitution of some old entry and is relocated; every relocated substitution survives, with its multiplicity; order is kept |
| RpathPolicy.OriginEntrySurvives | Library/Homebrew/extend/os/linux/keg_relocate.rb:29-31 | a `$ORIGIN` entry not containing the old prefix survives unchanged |
| RpathPolicy.OldPrefixEntryMoves | Library/Homebrew/extend/os/linux/keg_relocate.rb:29-31 | an entry starting with the old prefix survives with the new prefix in its place |
| RpathPolicy.WithPrefixLib | Library/Homebrew/extend/os/linux/keg_relocate.rb:33-34 | after the append step the new prefix's `lib` directory is present, the old entries are still in front, and at most one entry was added |
| RpathPolicy.PrefixLibAppendedOnce | Library/Homebrew/extend/os/linux/keg_relocate.rb:33-34 | the list is unchanged when the new prefix's `lib` directory is already there and gets it appended at the end otherwise, so the append never makes a second copy |
| RpathPolicy.PrefixLibInNewRpath | Library/Homebrew/extend/os/linux/keg_relocate.rb:29-48 | the new prefix's `lib` directory is in every computed RPATH list, after the GCC step as well |
| RpathPolicy.WithGccRuntime | Library/Homebrew/extend/os/linux/keg_relocate.rb:38-46 | the GCC step keeps the old entries, in order, at the end of the list and adds at most one entry in front, GCC's `current` directory |
| RpathPolicy.GccRuntimePrepended | Library/Homebrew/extend/os/linux/keg_relocate.rb:38-46 | the list grows if and only if the keg is not gcc and some entry ends in `lib/gcc/<digits>`; then GCC's `current` directory is first and the rest is unchanged and in order; otherwise the list is unchanged |
| RpathPolicy.VersionedGccDirMatchesPattern | Library/Homebrew/extend/os/linux/keg_relocate.rb:39 | the suffix test used for `lib/gcc/\d+` holds if and only if some split point has `lib/gcc/` before it and only digits (at least one) after it |
| RpathPolicy.GccVersionedMatchesPattern | Library/Homebrew/extend/os/linux/keg_relocate.rb:39 | an entry matches `lib/gcc/\d+$` if and only if, at the end of the string or before some line feed, it has `lib/gcc/` followed by one or more digits |
| RpathPolicy.GccExample | Library/Homebrew/extend/os/linux/keg_relocate.rb:39 | `/new/lib/gcc/12` matches the versioned-GCC pattern |
| RpathPolicy.SingleEntryRelocated | Library/Homebrew/extend/os/linux/keg_relocate.rb:29-31 | an RPATH of one `:`-free entry under the old prefix relocates to exactly that entry with the new prefix in place of the old |
| RpathPolicy.GccPipelineExample | Library/Homebrew/extend/os/linux/keg_relocate.rb:28-49 | the whole pipeline on `/old/lib/gcc/12`, `/old` to `/new`, for a keg other than gcc with an empty Homebrew prefix, gives `/opt/gcc/lib/gcc/current`, `/new/lib/gcc/12`, `/new/lib` in that order |
| RpathPolicy.FilterPipelineExample | Library/Homebrew/extend/os/linux/keg_relocate.rb:28-49 | the whole pipeline on `/old/lib:/other/unrelated`, `/old` to `/new`, gives just `/new/lib` for any keg and Homebrew prefix: the unrelated entry is dropped, `/new/lib` is not appended twice, and the GCC step does not fire |
| RpathPolicy.NewRpath | Library/Homebrew/extend/os/linux/keg_relocate.rb:27-49 | the new RPATH is absent if and only if the old one is: relocation never invents an RPATH |
| RpathPolicy.RpathRoundTrip | Library/Homebrew/extend/os/linux/keg_relocate.rb:29-48 | with `:`-free prefixes and a non-empty new prefix, the joined RPATH splits back into exactly the computed entry list |
| RpathPolicy.RelocateAgain | Library/Homebrew/extend/os/linux/keg_relocate.rb:29-46 | relocating in place a `:`-free, relocated list that holds the new prefix's `lib` directory reapplies only the GCC step |
| RpathPolicy.RelocatedRpathIsFixedPoint | Library/Homebrew/extend/os/linux/keg_relocate.rb:28-49 | if the GCC step did not fire, relocating the new RPATH again in place returns the same string |
| RpathPolicy.GccStepRepeats | Library/Homebrew/extend/os/linux/keg_relocate.rb:38-46 | if the GCC step fired and GCC's directory lies under the new prefix, relocating again in place prepends that directory once more |
| RpathPolicy.GccFiredYetFixedPoint | Library/Homebrew/extend/os/linux/keg_relocate.rb:28-49 | if the GCC step fired but GCC's directory is not relocated (outside the new prefix, not `$ORIGIN`), relocating the new RPATH again in place returns the same string: the filter drops the directory and the GCC step prepends it again |
| RpathPolicy.GccFiredYetFixedPointExample | Library/Homebrew/extend/os/linux/keg_relocate.rb:31-45 | the premises of `GccFiredYetFixedPoint` hold together: RPATH `/new/lib/gcc/12` relocated in place under `/new`, with GCC under `/h`, fires the GCC step and leaves GCC's directory unrelocated |
| RpathPolicy.GccPrependedAgain | Library/Homebrew/extend/os/linux/keg_relocate.rb:45 | the same repetition, stated for the list right after the append step |
| RpathPolicy.NewInterpreter | Library/Homebrew/extend/os/linux/keg_relocate.rb:52-59 | the new interpreter is absent if and only if the old one is; it is the new `lib/ld.so` whenever that file is readable, and otherwise the old one with its first occurrence of the old prefix replaced by the new prefix |
| RpathPolicy.InterpreterRelocation | Library/Homebrew/extend/os/linux/keg_relocate.rb:52-59 | as `NewInterpreter`. Without a readable `ld.so`, an interpreter containing the old prefix anywhere has its first occurrence, and only that one, replaced by the new prefix; one under the old prefix therefore becomes exactly the new prefix followed by the same remainder, and one not containing the old prefix is left alone |
| RpathPolicy.Changed | Library/Homebrew/extend/os/linux/keg_relocate.rb:50 | an `updated` field is set if and only if a value was computed and it differs from the current one, and then it holds that value |
| KegRelocate.FirstOfEachInode | Library/Homebrew/extend/os/linux/keg_relocate.rb:79-94 | every kept path is a non-symlink, non-directory dylib or executable whose inode was not seen before, and no two kept paths share an inode |
| KegRelocate.ElfFiles | Library/Homebrew/extend/os/linux/keg_relocate.rb:79-94 | the loop with the `hardlinks` set returns exactly the first path of each candidate inode, in traversal order |
| KegRelocate.FirstOfEachInodeCovers | Library/Homebrew/extend/os/linux/keg_relocate.rb:79-94 | every candidate inode of the walk that was not seen before has a path in the result |
| KegRelocate.FirstOfEachInodeInOrder | Library/Homebrew/extend/os/linux/keg_relocate.rb:82-91 | the result is a subsequence of the traversal |
| KegRelocate.FirstOfEachInodeComplete | Library/Homebrew/extend/os/linux/keg_relocate.rb:89 | the first path of every unseen candidate inode is kept |
| KegRelocate.ElfFilesDeduplicated | Library/Homebrew/extend/os/linux/keg_relocate.rb:79-94 | `elf_files` has distinct inodes, no symlink or directory, only dylibs and executables, traversal order, and the first path of every candidate inode |
| KegRelocate.HardLinksYieldOne | Library/Homebrew/extend/os/linux/keg_relocate.rb:86-89 | three hard links to one inode give only the first path |
| KegRelocate.PatchFor | Library/Homebrew/extend/os/linux/keg_relocate.rb:24 | there is no `patch!` call if and only if the file is not an ELF or not dynamic; a call is for the file itself |
| KegRelocate.ChangeRpath | Library/Homebrew/extend/os/linux/keg_relocate.rb:23-63 | filling the `updated` hash field by field makes the same `patch!` call as the RPATH and interpreter functions above |
| KegRelocate.PatchOnlyChangedFields | Library/Homebrew/extend/os/linux/keg_relocate.rb:50-62 | `patch!` gets a value for a field if and only if the computed value differs from the current one, and then it gets that value; an absent RPATH or interpreter is never given one |
| KegRelocate.PatchCalls | Library/Homebrew/extend/os/linux/keg_relocate.rb:16-20 | every call is for one of the visited files, that file is a dynamic ELF, and the call is exactly what `change_rpath` asks of that file (`PatchFor`), so `PatchOnlyChangedFields` holds of every write |
| KegRelocate.PatchCallsInOrder | Library/Homebrew/extend/os/linux/keg_relocate.rb:16-20 | the files of the calls are a subsequence of the visited files: calls come in the order `elf_files` lists the files |
| KegRelocate.PatchCallsDistinct | Library/Homebrew/extend/os/linux/keg_relocate.rb:16-20 | visiting files with distinct inodes writes each inode at most once |
| KegRelocate.PatchCallsComplete | Library/Homebrew/extend/os/linux/keg_relocate.rb:16-20 | every visited dynamic ELF file gets a call |
| KegRelocate.Relocation | Library/Homebrew/extend/os/linux/keg_relocate.rb:7-21 | a glibc or patchelf keg gets no call, and no keg gets more calls than `elf_files` has files |
| KegRelocate.RelocationEmptyExactly | Library/Homebrew/extend/os/linux/keg_relocate.rb:9-20 | a relocation makes no `patch!` call at all if and only if the keg is glibc (by the versioned-name test) or patchelf, or `elf_files` finds no dynamic ELF file |
| KegRelocate.RelocateDynamicLinkage | Library/Homebrew/extend/os/linux/keg_relocate.rb:7-21 | a glibc or patchelf keg gets no call; any other keg gets the `change_rpath` call of each file from `elf_files`, in order |
| KegRelocate.RelocationPatchesEachInodeOnce | Library/Homebrew/extend/os/linux/keg_relocate.rb:7-21 | a relocation writes each inode at most once; it writes only dynamic ELF dylibs or executables from the keg's tree; and unless the keg is skipped, it writes the first path of every dynamic ELF inode |
| KegRelocate.DetectCxxStdlibs | Library/Homebrew/extend/os/linux/keg_relocate.rb:65-77 | `:libcxx` is reported if and only if some inspected file links a library whose name contains `libc++.so`; `:libstdcxx` likewise for `libstdc++.so`; inspected means dynamic, and not an executable when `skip_executables` is set |

## Left out

- `Keg.bottle_dependencies` (lines 96-106): a memoised class-level query of the formula and compiler registries, with no logic of its own.
- `ensure_writable` (line 17): a permission change around each write, which is filesystem I/O; the model calls `change_rpath` directly.
- Exceptions: `patch!` and `ensure_writable` are taken to return normally. Lines 16-20 have no `rescue`, so in Ruby a raise from either (an unwritable file, a value too long for the binary) ends the loop early and propagates out of `relocate_dynamic_linkage`, leaving the remaining files unpatched. The completeness statements of `PatchCallsComplete`, `RelocationPatchesEachInodeOnce` and `RelocationEmptyExactly` hold only for runs in which no such exception occurs.
- ELF reading and writing: `elf?`, `dynamic_elf?`, `rpath`, `interpreter` and `dynamically_linked_libraries` become fields of the `ElfInfo` record. `patch!` becomes a returned `PatchCall`, and the binary format is not modelled.
- The directory walk and `stat`: `path.find` becomes the sequence `Keg.tree` in traversal order. `symlink?`, `directory?`, `dylib?`, `binary_executable?` and `stat.dev`/`stat.ino` become record fields.
- `File.readable?` on the new `lib/ld.so` becomes the boolean parameter `ldSoReadable`. The source asks the file system once per ELF file; the model takes one value for the whole relocation, so the file is assumed not to appear or disappear during a run.
- `Version.formula_optionally_versioned_regex`: the name tests against glibc and gcc become the parameter `versioned(formula, kegName)`.
- `relocation.replacement_pair_for(:prefix)` becomes the `oldPrefix`/`newPrefix` parameters. Both are taken to be strings: `Relocation` is not part of this model, and a `Regexp` old prefix would give `sub` pattern semantics, which `ReplaceFirst` does not model. `HOMEBREW_PREFIX` becomes `homebrewPrefix`.
- `HOMEBREW_PREFIX/"opt/gcc/lib/gcc/current"` is modelled as plain concatenation with `/`. `Pathname`'s normalisation, for example of a trailing slash in the prefix, is not modelled.
- The commented-out `lib/gcc/current` rewrite (lines 40-44) is not current behaviour and is not modelled.
- Ruby's backslash escapes in the replacement string of `String#sub` (`\0`, `\1`, `\\`) are not interpreted: the new prefix is inserted literally.
- `String#split` is modelled for a single-character separator only. Its special whitespace mode does not arise here.
- `KegRelocate.DetectCxxStdlibs`: returns a set, not the array `results.to_a`. The array's order follows `Set` insertion order, which the model does not capture.
- `RpathPolicy.RpathRoundTrip`, `RpathPolicy.RelocatedRpathIsFixedPoint`, `RpathPolicy.GccFiredYetFixedPoint` and `RpathPolicy.GccStepRepeats`: proved only when the new prefix is non-empty and the new prefix and `HOMEBREW_PREFIX` contain no `:`. Otherwise a joined entry can split into different entries.

=== FILE: keg_relocate.dfy ===
/**
  The Linux side of `Keg` relocation: which files of a keg are visited
  (`elf_files`, one path per inode), what `patch!` is asked to write for
  each of them (`change_rpath`), the package-level skips
  (`relocate_dynamic_linkage`), and the C++ standard library scan
  (`detect_cxx_stdlibs`).

  The directory walk, `stat`, the ELF reader and the ELF writer are
  outside the model: the walk is given as the sequence of records it yields,
  and every `patch!` call is returned as a `PatchCall` record, in call order.
*/
module KegRelocate {
  import opened Wrappers
  import opened Text
  import opened Subsequences
  import opened RpathPolicy

  /** What the ELF reader reports about one file. */
  datatype ElfInfo = ElfInfo(
    isElf: bool,
    isDynamic: bool,
    rpath: Option<string>,
    interpreter: Option<string>,
    linkedLibraries: seq<string>)

  /** One path yielded by `path.find`, with the answers of the tests asked of it. */
  datatype PathEntry = PathEntry(
    path: string,
    isSymlink: bool,
    isDirectory: bool,
    isDylib: bool,
    isBinaryExecutable: bool,
    dev: nat,
    ino: nat,
    elf: ElfInfo)

  /** A keg: its name and the paths under its directory, in traversal order. */
  datatype Keg = Keg(name: string, tree: seq<PathEntry>)

  /** One `file.patch!(interpreter:, rpath:)` call; `None` is Ruby's `nil`, "leave this field alone". */
  datatype PatchCall = PatchCall(file: PathEntry, interpreter: Option<string>, rpath: Option<string>)

  /** The keys of the `updated` hash. */
  datatype Field = InterpreterField | RpathField

  datatype CxxStdlib = Libcxx | Libstdcxx

  /**
    `versioned(formula, name)` stands for
    `name.match?(Version.formula_optionally_versioned_regex(formula))`.
  */
  predicate GccKeg(keg: Keg, versioned: (string, string) -> bool) {
    versioned("gcc", keg.name)
  }

  /** glibc and patchelf kegs are never relocated. */
  predicate SkippedKeg(keg: Keg, versioned: (string, string) -> bool) {
    versioned("glibc", keg.name) || keg.name == "patchelf"
  }

  /** Not a symlink, not a directory, and a dylib or a binary executable. */
  predicate ElfCandidate(e: PathEntry) {
    !e.isSymlink && !e.isDirectory && (e.isDylib || e.isBinaryExecutable)
  }

  /** `[pn.stat.dev, pn.stat.ino]`. */
  function InodeKey(e: PathEntry): (nat, nat) {
    (e.dev, e.ino)
  }

  predicate DistinctInodes(files: seq<PathEntry>) {
    forall i, j :: 0 <= i < j < |files| ==> InodeKey(files[i]) != InodeKey(files[j])
  }

  /** No candidate before position `i` of `tree` shares its inode. */
  ghost predicate FirstWithInode(tree: seq<PathEntry>, i: int)
    requires 0 <= i < |tree|
  {
    forall j :: 0 <= j < i && ElfCandidate(tree[j]) ==> InodeKey(tree[j]) != InodeKey(tree[i])
  }

  // ---------------------------------------------------------------------------
  // elf_files

  /**
    The candidates of `tree`, each inode taken once (its first path), given
    the inodes already in `seen`.
  */
  function FirstOfEachInode(tree: seq<PathEntry>, seen: set<(nat, nat)>): (r: seq<PathEntry>)
    ensures forall k :: 0 <= k < |r| ==> ElfCandidate(r[k]) && InodeKey(r[k]) !in seen && r[k] in tree
    ensures DistinctInodes(r)
  {
    if tree == [] then []
    else if !ElfCandidate(tree[0]) || InodeKey(tree[0]) in seen then FirstOfEachInode(tree[1..], seen)
    else [tree[0]] + FirstOfEachInode(tree[1..], seen + {InodeKey(tree[0])})
  }

  /** The result of `elf_files`. */
  function UniqueElfFiles(tree: seq<PathEntry>): seq<PathEntry> {
    FirstOfEachInode(tree, {})
  }

  /** Some path in `files` has the inode `key`. */
  ghost predicate HasInode(files: seq<PathEntry>, key: (nat, nat)) {
    exists k :: 0 <= k < |files| && InodeKey(files[k]) == key
  }

  lemma HasInodeCons(x: PathEntry, files: seq<PathEntry>, key: (nat, nat))
    requires HasInode(files, key)
    ensures HasInode([x] + files, key)
  {
    var k :| 0 <= k < |files| && InodeKey(files[k]) == key;
    assert ([x] + files)[k + 1] == files[k];
  }

  /** Every candidate inode of `tree` not in `seen` has a path in the result. */
  lemma {:induction false} FirstOfEachInodeCovers(tree: seq<PathEntry>, seen: set<(nat, nat)>)
    ensures forall i :: 0 <= i < |tree| && ElfCandidate(tree[i]) && InodeKey(tree[i]) !in seen ==>
              HasInode(FirstOfEachInode(tree, seen), InodeKey(tree[i]))
  {
    if tree != [] {
      var taken := ElfCandidate(tree[0]) && InodeKey(tree[0]) !in seen;
      var seen' := if taken then seen + {InodeKey(tree[0])} else seen;
      var rest := FirstOfEachInode(tree[1..], seen');
      assert FirstOfEachInode(tree, seen) == if taken then [tree[0]] + rest else rest;
      FirstOfEachInodeCovers(tree[1..], seen');
      forall i | 0 <= i < |tree| && ElfCandidate(tree[i]) && InodeKey(tree[i]) !in seen
        ensures HasInode(FirstOfEachInode(tree, seen), InodeKey(tree[i]))
      {
        if taken && InodeKey(tree[i]) == InodeKey(tree[0]) {
          assert InodeKey(([tree[0]] + rest)[0]) == InodeKey(tree[i]);
        } else {
          assert tree[1..][i - 1] == tree[i];
          if taken {
            HasInodeCons(tree[0], rest, InodeKey(tree[i]));
          }
        }
      }
    }
  }

  /** `Keg#elf_files`: one pass over the walk, keeping a set of seen `[dev, ino]` pairs. */
  method ElfFiles(keg: Keg) returns (files: seq<PathEntry>)
    ensures files == UniqueElfFiles(keg.tree)
  {
    var hardlinks: set<(nat, nat)> := {};
    files := [];
    for i := 0 to |keg.tree|
      invariant files + FirstOfEachInode(keg.tree[i..], hardlinks) == UniqueElfFiles(keg.tree)
    {
      var pn := keg.tree[i];
      assert keg.tree[i..] == [pn] + keg.tree[i + 1..];
      if pn.isSymlink || pn.isDirectory {
        continue;
      }
      if !pn.isDylib && !pn.isBinaryExecutable {
        continue;
      }
      if InodeKey(pn) in hardlinks {
        continue;
      }
      hardlinks := hardlinks + {InodeKey(pn)};
      files := files + [pn];
    }
    assert keg.tree[|keg.tree|..] == [];
  }

  lemma {:induction false} FirstOfEachInodeInOrder(tree: seq<PathEntry>, seen: set<(nat, nat)>)
    ensures IsSubsequence(FirstOfEachInode(tree, seen), tree)
  {
    if tree == [] {
      EmptyIsSubsequence(tree);
    } else {
      assert tree == [tree[0]] + tree[1..];
      if !ElfCandidate(tree[0]) || InodeKey(tree[0]) in seen {
        FirstOfEachInodeInOrder(tree[1..], seen);
        SubsequenceSkip(FirstOfEachInode(tree[1..], seen), tree[0], tree[1..]);
      } else {
        var seen' := seen + {InodeKey(tree[0])};
        FirstOfEachInodeInOrder(tree[1..], seen');
        SubsequenceTake(FirstOfEachInode(tree[1..], seen'), tree[0], tree[1..]);
      }
    }
  }

  lemma {:induction false} FirstOfEachInodeComplete(tree: seq<PathEntry>, seen: set<(nat, nat)>, i: int)
    requires 0 <= i < |tree| && ElfCandidate(tree[i]) && InodeKey(tree[i]) !in seen && FirstWithInode(tree, i)
    ensures tree[i] in FirstOfEachInode(tree, seen)
  {
    if i > 0 {
      var seen' := if InodeKey(tree[0]) in seen || !ElfCandidate(tree[0]) then seen else seen + {InodeKey(tree[0])};
      assert InodeKey(tree[i]) !in seen' by {
        if ElfCandidate(tree[0]) {
          assert InodeKey(tree[0]) != InodeKey(tree[i]);
        }
      }
      assert FirstWithInode(tree[1..], i - 1) by {
        forall j | 0 <= j < i - 1 && ElfCandidate(tree[1..][j])
          ensures InodeKey(tree[1..][j]) != InodeKey(tree[1..][i - 1])
        {
          assert tree[1..][j] == tree[j + 1];
        }
      }
      FirstOfEachInodeComplete(tree[1..], seen', i - 1);
    }
  }

  /**
    `elf_files` never returns two paths of one inode, nor a symlink, a
    directory or a file that is neither a dylib nor an executable; it keeps
    traversal order; and it returns the first path of every candidate inode.
  */
  lemma ElfFilesDeduplicated(tree: seq<PathEntry>)
    ensures var files := UniqueElfFiles(tree);
            && DistinctInodes(files)
            && (forall k :: 0 <= k < |files| ==> !files[k].isSymlink && !files[k].isDirectory)
            && (forall k :: 0 <= k < |files| ==> files[k].isDylib || files[k].isBinaryExecutable)
            && IsSubsequence(files, tree)
            && (forall i :: 0 <= i < |tree| && ElfCandidate(tree[i]) && FirstWithInode(tree, i) ==> tree[i] in files)
  {
    FirstOfEachInodeInOrder(tree, {});
    forall i | 0 <= i < |tree| && ElfCandidate(tree[i]) && FirstWithInode(tree, i)
      ensures tree[i] in UniqueElfFiles(tree)
    {
      FirstOfEachInodeComplete(tree, {}, i);
    }
  }

  /** Three hard links to one inode yield exactly one file. */
  lemma HardLinksYieldOne(a: PathEntry, b: PathEntry, c: PathEntry)
    requires ElfCandidate(a) && ElfCandidate(b) && ElfCandidate(c)
    requires InodeKey(a) == InodeKey(b) == InodeKey(c)
    ensures UniqueElfFiles([a, b, c]) == [a]
  {
    var seen := {InodeKey(a)};
    assert [c][1..] == [];
    assert FirstOfEachInode([c], seen) == [];
    assert [b, c][1..] == [c];
    assert FirstOfEachInode([b, c], seen) == [];
    assert [a, b, c][1..] == [b, c];
    assert {} + {InodeKey(a)} == seen;
    assert FirstOfEachInode([a, b, c], {}) == [a] + FirstOfEachInode([b, c], seen);
  }

  // ---------------------------------------------------------------------------
  // change_rpath

  /** The `patch!` call `change_rpath` makes for `file`, if any. */
  function PatchFor(file: PathEntry, gccKeg: bool, oldPrefix: string, newPrefix: string, homebrewPrefix: string, ldSoReadable: bool): (r: Option<PatchCall>)
    ensures r.None? <==> !file.elf.isElf || !file.elf.isDynamic
    ensures r.Some? ==> r.value.file == file
  {
    if !file.elf.isElf || !file.elf.isDynamic then None
    else
      var interpreter := NewInterpreter(file.elf.interpreter, oldPrefix, newPrefix, ldSoReadable);
      var rpath := NewRpath(file.elf.rpath, oldPrefix, newPrefix, gccKeg, homebrewPrefix);
      Some(PatchCall(file, Changed(file.elf.interpreter, interpreter), Changed(file.elf.rpath, rpath)))
  }

  function Lookup(updated: map<Field, string>, f: Field): Option<string> {
    if f in updated then Some(updated[f]) else None
  }

  /** `Keg#change_rpath`: fills the `updated` hash field by field and passes it to `patch!`. */
  method ChangeRpath(keg: Keg, versioned: (string, string) -> bool, file: PathEntry,
                     oldPrefix: string, newPrefix: string, homebrewPrefix: string, ldSoReadable: bool)
    returns (call: Option<PatchCall>)
    ensures call == PatchFor(file, GccKeg(keg, versioned), oldPrefix, newPrefix, homebrewPrefix, ldSoReadable)
  {
    if !file.elf.isElf || !file.elf.isDynamic {
      return None;
    }

    var updated: map<Field, string> := map[];
    var oldRpath := file.elf.rpath;
    var newRpath: Option<string> := None;
    if oldRpath.Some? {
      var rpath := KeepRelocated(Substitute(Split(oldRpath.value, ':'), oldPrefix, newPrefix), newPrefix);
      assert rpath == RelocatedEntries(oldRpath.value, oldPrefix, newPrefix);
      var libPath := PrefixLibDir(newPrefix);
      if libPath !in rpath {
        rpath := rpath + [libPath];
      }
      assert rpath == WithPrefixLib(RelocatedEntries(oldRpath.value, oldPrefix, newPrefix), newPrefix);
      ghost var withLib := rpath;
      if !versioned("gcc", keg.name) && exists rp :: rp in rpath && GccVersioned(rp) {
        assert GccStepFires(withLib, GccKeg(keg, versioned));
        rpath := [GccCurrentLibDir(homebrewPrefix)] + rpath;
      } else {
        assert !GccStepFires(withLib, GccKeg(keg, versioned));
      }
      assert rpath == NewRpathList(oldRpath.value, oldPrefix, newPrefix, GccKeg(keg, versioned), homebrewPrefix);
      newRpath := Some(Join(rpath, ':'));
    }
    assert newRpath == NewRpath(oldRpath, oldPrefix, newPrefix, GccKeg(keg, versioned), homebrewPrefix);
    if oldRpath != newRpath {
      updated := updated[RpathField := newRpath.value];
    }
    assert Lookup(updated, RpathField) == Changed(oldRpath, newRpath);

    var oldInterpreter := file.elf.interpreter;
    var newInterpreter: Option<string>;
    if oldInterpreter.None? {
      newInterpreter := None;
    } else if ldSoReadable {
      newInterpreter := Some(LdSoPath(newPrefix));
    } else {
      newInterpreter := Some(ReplaceFirst(oldInterpreter.value, oldPrefix, newPrefix));
    }
    assert newInterpreter == NewInterpreter(oldInterpreter, oldPrefix, newPrefix, ldSoReadable);
    ghost var before := updated;
    if oldInterpreter != newInterpreter {
      updated := updated[InterpreterField := newInterpreter.value];
    }
    assert InterpreterField !in before;
    assert Lookup(updated, InterpreterField) == Changed(oldInterpreter, newInterpreter);
    assert Lookup(updated, RpathField) == Lookup(before, RpathField);

    call := Some(PatchCall(file, Lookup(updated, InterpreterField), Lookup(updated, RpathField)));
  }

  /**
    `patch!` is passed a value for a field only when the computed value
    differs from the current one, and then that value; an absent RPATH or
    interpreter is never given one.
  */
  lemma PatchOnlyChangedFields(file: PathEntry, gccKeg: bool, oldPrefix: string, newPrefix: string, homebrewPrefix: string, ldSoReadable: bool)
    requires file.elf.isElf && file.elf.isDynamic
    ensures var call := PatchFor(file, gccKeg, oldPrefix, newPrefix, homebrewPrefix, ldSoReadable).value;
            var rpath := NewRpath(file.elf.rpath, oldPrefix, newPrefix, gccKeg, homebrewPrefix);
            var interpreter := NewInterpreter(file.elf.interpreter, oldPrefix, newPrefix, ldSoReadable);
            && (call.rpath.Some? <==> rpath != file.elf.rpath)
            && (call.rpath.Some? ==> call.rpath == rpath)
            && (call.interpreter.Some? <==> interpreter != file.elf.interpreter)
            && (call.interpreter.Some? ==> call.interpreter == interpreter)
            && (file.elf.rpath.None? ==> call.rpath.None?)
            && (file.elf.interpreter.None? ==> call.interpreter.None?)
  {
    InterpreterRelocation(file.elf.interpreter, oldPrefix, newPrefix, ldSoReadable);
  }

  // ---------------------------------------------------------------------------
  // relocate_dynamic_linkage

  /** The `patch!` calls made while visiting `files` in order. */
  function PatchCalls(files: seq<PathEntry>, gccKeg: bool, oldPrefix: string, newPrefix: string, homebrewPrefix: string, ldSoReadable: bool): (r: seq<PatchCall>)
    ensures |r| <= |files|
    ensures forall k :: 0 <= k < |r| ==> r[k].file in files && r[k].file.elf.isElf && r[k].file.elf.isDynamic
    ensures forall k :: 0 <= k < |r| ==> PatchFor(r[k].file, gccKeg, oldPrefix, newPrefix, homebrewPrefix, ldSoReadable) == Some(r[k])
  {
    if files == [] then []
    else
      assert files == files[..|files| - 1] + [files[|files| - 1]];
      var before := PatchCalls(files[..|files| - 1], gccKeg, oldPrefix, newPrefix, homebrewPrefix, ldSoReadable);
      match PatchFor(files[|files| - 1], gccKeg, oldPrefix, newPrefix, homebrewPrefix, ldSoReadable)
      case None => before
      case Some(call) => before + [call]
  }

  /** The files the calls are for, one per call. */
  function CallFiles(calls: seq<PatchCall>): (r: seq<PathEntry>)
    ensures |r| == |calls| && forall k :: 0 <= k < |r| ==> r[k] == calls[k].file
  {
    seq(|calls|, k requires 0 <= k < |calls| => calls[k].file)
  }

  /** The calls follow the order in which the files are visited. */
  lemma {:induction false} PatchCallsInOrder(files: seq<PathEntry>, gccKeg: bool, oldPrefix: string, newPrefix: string, homebrewPrefix: string, ldSoReadable: bool)
    ensures IsSubsequence(CallFiles(PatchCalls(files, gccKeg, oldPrefix, newPrefix, homebrewPrefix, ldSoReadable)), files)
  {
    if files == [] {
      EmptyIsSubsequence(files);
    } else {
      var init := files[..|files| - 1];
      var last := files[|files| - 1];
      assert files == init + [last];
      var before := PatchCalls(init, gccKeg, oldPrefix, newPrefix, homebrewPrefix, ldSoReadable);
      PatchCallsInOrder(init, gccKeg, oldPrefix, newPrefix, homebrewPrefix, ldSoReadable);
      match PatchFor(last, gccKeg, oldPrefix, newPrefix, homebrewPrefix, ldSoReadable)
      case None =>
        SubsequenceSnocSkip(CallFiles(before), init, last);
      case Some(call) =>
        assert CallFiles(before + [call]) == CallFiles(before) + [last];
        SubsequenceSnocTake(CallFiles(before), init, last);
    }
  }

  /**
    Everything `relocate_dynamic_linkage` asks `patch!` to do, in order:
    nothing for a skipped keg, and at most one call per file of `elf_files`.
  */
  function Relocation(keg: Keg, versioned: (string, string) -> bool, oldPrefix: string, newPrefix: string, homebrewPrefix: string, ldSoReadable: bool): (r: seq<PatchCall>)
    ensures SkippedKeg(keg, versioned) ==> r == []
    ensures |r| <= |UniqueElfFiles(keg.tree)|
  {
    if SkippedKeg(keg, versioned) then []
    else PatchCalls(UniqueElfFiles(keg.tree), GccKeg(keg, versioned), oldPrefix, newPrefix, homebrewPrefix, ldSoReadable)
  }

  /** `Keg#relocate_dynamic_linkage`. */
  method RelocateDynamicLinkage(keg: Keg, versioned: (string, string) -> bool,
                                oldPrefix: string, newPrefix: string, homebrewPrefix: string, ldSoReadable: bool)
    returns (calls: seq<PatchCall>)
    ensures SkippedKeg(keg, versioned) ==> calls == []
    ensures calls == Relocation(keg, versioned, oldPrefix, newPrefix, homebrewPrefix, ldSoReadable)
  {
    calls := [];
    if versioned("glibc", keg.name) {
      return;
    }
    if keg.name == "patchelf" {
      return;
    }
    var files := ElfFiles(keg);
    for i := 0 to |files|
      invariant calls == PatchCalls(files[..i], GccKeg(keg, versioned), oldPrefix, newPrefix, homebrewPrefix, ldSoReadable)
    {
      var call := ChangeRpath(keg, versioned, files[i], oldPrefix, newPrefix, homebrewPrefix, ldSoReadable);
      assert files[..i + 1][..i] == files[..i];
      if call.Some? {
        calls := calls + [call.value];
      }
    }
    assert files[..|files|] == files;
  }

  /** No two calls write the same inode. */
  predicate DistinctCallInodes(calls: seq<PatchCall>) {
    forall i, j :: 0 <= i < j < |calls| ==> InodeKey(calls[i].file) != InodeKey(calls[j].file)
  }

  lemma DistinctCallInodesSnoc(before: seq<PatchCall>, call: PatchCall)
    requires DistinctCallInodes(before)
    requires forall k :: 0 <= k < |before| ==> InodeKey(before[k].file) != InodeKey(call.file)
    ensures DistinctCallInodes(before + [call])
  {
    var calls := before + [call];
    forall i, j | 0 <= i < j < |calls| ensures InodeKey(calls[i].file) != InodeKey(calls[j].file) {
      assert calls[i] == before[i];
      if j < |before| {
        assert calls[j] == before[j];
      }
    }
  }

  lemma {:induction false} PatchCallsDistinct(files: seq<PathEntry>, gccKeg: bool, oldPrefix: string, newPrefix: string, homebrewPrefix: string, ldSoReadable: bool)
    requires DistinctInodes(files)
    ensures DistinctCallInodes(PatchCalls(files, gccKeg, oldPrefix, newPrefix, homebrewPrefix, ldSoReadable))
  {
    if files != [] {
      var n := |files| - 1;
      var prefix := files[..n];
      PatchCallsDistinct(prefix, gccKeg, oldPrefix, newPrefix, homebrewPrefix, ldSoReadable);
      var before := PatchCalls(prefix, gccKeg, oldPrefix, newPrefix, homebrewPrefix, ldSoReadable);
      match PatchFor(files[n], gccKeg, oldPrefix, newPrefix, homebrewPrefix, ldSoReadable)
      case None =>
        assert PatchCalls(files, gccKeg, oldPrefix, newPrefix, homebrewPrefix, ldSoReadable) == before;
      case Some(call) =>
        assert PatchCalls(files, gccKeg, oldPrefix, newPrefix, homebrewPrefix, ldSoReadable) == before + [call];
        PatchCallsAvoidLast(files, gccKeg, oldPrefix, newPrefix, homebrewPrefix, ldSoReadable);
        DistinctCallInodesSnoc(before, call);
    }
  }

  /** With distinct inodes, no call made for the earlier files writes the inode of the last one. */
  lemma PatchCallsAvoidLast(files: seq<PathEntry>, gccKeg: bool, oldPrefix: string, newPrefix: string, homebrewPrefix: string, ldSoReadable: bool)
    requires DistinctInodes(files) && files != []
    ensures var n := |files| - 1;
            var before := PatchCalls(files[..n], gccKeg, oldPrefix, newPrefix, homebrewPrefix, ldSoReadable);
            forall k :: 0 <= k < |before| ==> InodeKey(before[k].file) != InodeKey(files[n])
  {
    var n := |files| - 1;
    var prefix := files[..n];
    var before := PatchCalls(prefix, gccKeg, oldPrefix, newPrefix, homebrewPrefix, ldSoReadable);
    forall k | 0 <= k < |before| ensures InodeKey(before[k].file) != InodeKey(files[n]) {
      var m :| 0 <= m < n && prefix[m] == before[k].file;
      assert files[m] == before[k].file;
    }
  }

  /** Every dynamic ELF file in `files` gets a `patch!` call. */
  lemma {:induction false} PatchCallsComplete(files: seq<PathEntry>, gccKeg: bool, oldPrefix: string, newPrefix: string, homebrewPrefix: string, ldSoReadable: bool, f: PathEntry)
    requires f in files && f.elf.isElf && f.elf.isDynamic
    ensures var calls := PatchCalls(files, gccKeg, oldPrefix, newPrefix, homebrewPrefix, ldSoReadable);
            exists k :: 0 <= k < |calls| && calls[k].file == f
  {
    var n := |files| - 1;
    var prefix := files[..n];
    var before := PatchCalls(prefix, gccKeg, oldPrefix, newPrefix, homebrewPrefix, ldSoReadable);
    var call := PatchFor(files[n], gccKeg, oldPrefix, newPrefix, homebrewPrefix, ldSoReadable);
    if f == files[n] {
      assert PatchCalls(files, gccKeg, oldPrefix, newPrefix, homebrewPrefix, ldSoReadable) == before + [call.value];
      assert (before + [call.value])[|before|].file == f;
    } else {
      assert files == prefix + [files[n]];
      PatchCallsComplete(prefix, gccKeg, oldPrefix, newPrefix, homebrewPrefix, ldSoReadable, f);
      var k :| 0 <= k < |before| && before[k].file == f;
      if call.Some? {
        assert PatchCalls(files, gccKeg, oldPrefix, newPrefix, homebrewPrefix, ldSoReadable) == before + [call.value];
        assert (before + [call.value])[k] == before[k];
      }
    }
  }

  /**
    A relocation writes each inode at most once, only to dynamic ELF files
    found by `elf_files`, and visits the first path of every dynamic ELF
    inode; a glibc or patchelf keg gets no call at all.
  */
  lemma RelocationPatchesEachInodeOnce(keg: Keg, versioned: (string, string) -> bool, oldPrefix: string, newPrefix: string, homebrewPrefix: string, ldSoReadable: bool)
    ensures var calls := Relocation(keg, versioned, oldPrefix, newPrefix, homebrewPrefix, ldSoReadable);
            && (SkippedKeg(keg, versioned) ==> calls == [])
            && DistinctCallInodes(calls)
            && (forall k :: 0 <= k < |calls| ==>
                  calls[k].file in keg.tree && ElfCandidate(calls[k].file) && calls[k].file.elf.isElf && calls[k].file.elf.isDynamic)
            && (forall i :: 0 <= i < |keg.tree| && ElfCandidate(keg.tree[i]) && FirstWithInode(keg.tree, i)
                  && keg.tree[i].elf.isElf && keg.tree[i].elf.isDynamic && !SkippedKeg(keg, versioned)
                  ==> exists k :: 0 <= k < |calls| && calls[k].file == keg.tree[i])
  {
    var files := UniqueElfFiles(keg.tree);
    ElfFilesDeduplicated(keg.tree);
    if !SkippedKeg(keg, versioned) {
      PatchCallsDistinct(files, GccKeg(keg, versioned), oldPrefix, newPrefix, homebrewPrefix, ldSoReadable);
      var calls := Relocation(keg, versioned, oldPrefix, newPrefix, homebrewPrefix, ldSoReadable);
      forall k | 0 <= k < |calls| ensures calls[k].file in keg.tree && ElfCandidate(calls[k].file) {
        var m :| 0 <= m < |files| && files[m] == calls[k].file;
        SubsequenceMember(files, keg.tree, m);
      }
      forall i | 0 <= i < |keg.tree| && ElfCandidate(keg.tree[i]) && FirstWithInode(keg.tree, i)
                 && keg.tree[i].elf.isElf && keg.tree[i].elf.isDynamic
        ensures exists k :: 0 <= k < |calls| && calls[k].file == keg.tree[i]
      {
        PatchCallsComplete(files, GccKeg(keg, versioned), oldPrefix, newPrefix, homebrewPrefix, ldSoReadable, keg.tree[i]);
      }
    }
  }

  /**
    A relocation makes no `patch!` call at all exactly when the keg is glibc
    or patchelf, or `elf_files` finds no dynamic ELF file in it.
  */
  lemma RelocationEmptyExactly(keg: Keg, versioned: (string, string) -> bool, oldPrefix: string, newPrefix: string, homebrewPrefix: string, ldSoReadable: bool)
    ensures Relocation(keg, versioned, oldPrefix, newPrefix, homebrewPrefix, ldSoReadable) == [] <==>
              SkippedKeg(keg, versioned) ||
              forall f :: f in UniqueElfFiles(keg.tree) ==> !(f.elf.isElf && f.elf.isDynamic)
  {
    var files := UniqueElfFiles(keg.tree);
    var calls := Relocation(keg, versioned, oldPrefix, newPrefix, homebrewPrefix, ldSoReadable);
    if !SkippedKeg(keg, versioned) {
      assert calls == PatchCalls(files, GccKeg(keg, versioned), oldPrefix, newPrefix, homebrewPrefix, ldSoReadable);
      if calls != [] {
        assert calls[0].file in files && calls[0].file.elf.isElf && calls[0].file.elf.isDynamic;
      }
      if f :| f in files && f.elf.isElf && f.elf.isDynamic {
        PatchCallsComplete(files, GccKeg(keg, versioned), oldPrefix, newPrefix, homebrewPrefix, ldSoReadable, f);
      }
    }
  }

  // ---------------------------------------------------------------------------
  // detect_cxx_stdlibs

  /** The files `detect_cxx_stdlibs` looks into. */
  predicate Inspected(f: PathEntry, skipExecutables: bool) {
    f.elf.isDynamic && !(f.isBinaryExecutable && skipExecutables)
  }

  /** `file.dynamically_linked_libraries.any? { |s| s.include? name }`. */
  predicate LinksAgainst(f: PathEntry, name: string) {
    exists lib :: lib in f.elf.linkedLibraries && Contains(lib, name)
  }

  /** Some file of `files` that `detect_cxx_stdlibs` inspects links a library whose name contains `name`. */
  predicate SomeFileLinks(files: seq<PathEntry>, skipExecutables: bool, name: string) {
    exists f :: f in files && Inspected(f, skipExecutables) && LinksAgainst(f, name)
  }

  lemma SomeFileLinksSnoc(files: seq<PathEntry>, f: PathEntry, skipExecutables: bool, name: string)
    ensures SomeFileLinks(files + [f], skipExecutables, name)
            <==> SomeFileLinks(files, skipExecutables, name) || (Inspected(f, skipExecutables) && LinksAgainst(f, name))
  {
    if SomeFileLinks(files + [f], skipExecutables, name) {
      var g :| g in files + [f] && Inspected(g, skipExecutables) && LinksAgainst(g, name);
      assert g in files || g == f;
    }
    if SomeFileLinks(files, skipExecutables, name) {
      var g :| g in files && Inspected(g, skipExecutables) && LinksAgainst(g, name);
      assert g in files + [f];
    }
    if Inspected(f, skipExecutables) && LinksAgainst(f, name) {
      assert f in files + [f];
    }
  }

  /**
    `Keg#detect_cxx_stdlibs`: `:libcxx` is reported exactly when some
    inspected file links a library whose name contains `libc++.so`, and
    `:libstdcxx` likewise for `libstdc++.so`.
  */
  method DetectCxxStdlibs(keg: Keg, skipExecutables: bool) returns (results: set<CxxStdlib>)
    ensures Libcxx in results <==> SomeFileLinks(UniqueElfFiles(keg.tree), skipExecutables, "libc++.so")
    ensures Libstdcxx in results <==> SomeFileLinks(UniqueElfFiles(keg.tree), skipExecutables, "libstdc++.so")
  {
    var files := ElfFiles(keg);
    results := {};
    for i := 0 to |files|
      invariant Libcxx in results <==> SomeFileLinks(files[..i], skipExecutables, "libc++.so")
      invariant Libstdcxx in results <==> SomeFileLinks(files[..i], skipExecutables, "libstdc++.so")
    {
      var file := files[i];
      assert files[..i + 1] == files[..i] + [file];
      SomeFileLinksSnoc(files[..i], file, skipExecutables, "libc++.so");
      SomeFileLinksSnoc(files[..i], file, skipExecutables, "libstdc++.so");
      if !file.elf.isDynamic {
        continue;
      }
      if file.isBinaryExecutable && skipExecutables {
        continue;
      }
      var dylibs := file.elf.linkedLibraries;
      if exists s :: s in dylibs && Contains(s, "libc++.so") {
        results := results + {Libcxx};
      }
      if exists s :: s in dylibs && Contains(s, "libstdc++.so") {
        results := results + {Libstdcxx};
      }
    }
    assert files[..|files|] == files;
  }
}

=== FILE: rpath_policy.dfy ===
/**
  What `Keg#change_rpath` computes for one ELF file, as functions of the
  file's current RPATH and interpreter and of the relocation's old and new
  prefixes: the RPATH pipeline (split, substitute, filter, append the
  new prefix's lib directory, prepend GCC's "current" lib directory) and the
  interpreter choice.
*/
module RpathPolicy {
  import opened Wrappers
  import opened Text
  import opened Subsequences

  /** The loader-relative RPATH token that the filter keeps. */
  const ORIGIN: string := "$ORIGIN"

  /**
    `"#{new_prefix}/lib"`: the `lib` directory of the installation prefix the
    keg is relocated to, shared by every keg under it (not the keg's own directory).
  */
  function PrefixLibDir(newPrefix: string): string {
    newPrefix + "/lib"
  }

  /** `"#{new_prefix}/lib/ld.so"`: the preferred dynamic loader. */
  function LdSoPath(newPrefix: string): string {
    newPrefix + "/lib/ld.so"
  }

  /** `HOMEBREW_PREFIX/"opt/gcc/lib/gcc/current"`. */
  function GccCurrentLibDir(homebrewPrefix: string): string {
    homebrewPrefix + "/opt/gcc/lib/gcc/current"
  }

  /** `x.start_with?(new_prefix, "$ORIGIN")`. */
  predicate Relocated(entry: string, newPrefix: string) {
    StartsWith(entry, newPrefix) || StartsWith(entry, ORIGIN)
  }

  /** `.map { |x| x.sub(old_prefix, new_prefix) }`. */
  function Substitute(entries: seq<string>, oldPrefix: string, newPrefix: string): (r: seq<string>)
    ensures |r| == |entries|
    ensures forall k :: 0 <= k < |r| ==> r[k] == ReplaceFirst(entries[k], oldPrefix, newPrefix)
  {
    if entries == [] then []
    else [ReplaceFirst(entries[0], oldPrefix, newPrefix)] + Substitute(entries[1..], oldPrefix, newPrefix)
  }

  /** `.select { |x| x.start_with?(new_prefix, "$ORIGIN") }`. */
  function KeepRelocated(entries: seq<string>, newPrefix: string): (r: seq<string>)
    ensures forall k :: 0 <= k < |r| ==> Relocated(r[k], newPrefix)
    ensures forall e :: e in r ==> e in entries
    ensures forall e :: e in entries && Relocated(e, newPrefix) ==> e in r
    ensures forall x :: multiset(r)[x] == if Relocated(x, newPrefix) then multiset(entries)[x] else 0
  {
    if entries == [] then []
    else
      assert entries == [entries[0]] + entries[1..];
      if Relocated(entries[0], newPrefix) then [entries[0]] + KeepRelocated(entries[1..], newPrefix)
    else KeepRelocated(entries[1..], newPrefix)
  }

  /** The RPATH entries that survive substitution and filtering, before the two insertions. */
  function RelocatedEntries(oldRpath: string, oldPrefix: string, newPrefix: string): seq<string> {
    KeepRelocated(Substitute(Split(oldRpath, ':'), oldPrefix, newPrefix), newPrefix)
  }

  /**
    `rpath << lib_path unless rpath.include? lib_path`: the new prefix's lib
    directory is present afterwards, the old entries stay in front, and at
    most one entry is added.
  */
  function WithPrefixLib(entries: seq<string>, newPrefix: string): (r: seq<string>)
    ensures PrefixLibDir(newPrefix) in r
    ensures |entries| <= |r| <= |entries| + 1 && r[..|entries|] == entries
  {
    var lib := PrefixLibDir(newPrefix);
    if lib in entries then entries else entries + [lib]
  }

  predicate IsDigit(c: char) {
    '0' <= c <= '9'
  }

  /** The length of the run of ASCII digits at the end of `s`. */
  function TrailingDigits(s: string): (n: nat)
    ensures n <= |s|
    ensures forall k :: |s| - n <= k < |s| ==> IsDigit(s[k])
    ensures n < |s| ==> !IsDigit(s[|s| - n - 1])
  {
    if s == [] || !IsDigit(s[|s| - 1]) then 0
    else TrailingDigits(s[..|s| - 1]) + 1
  }

  /** `s` ends with `lib/gcc/` followed by one or more digits. */
  predicate EndsWithVersionedGccDir(s: string) {
    var n := TrailingDigits(s);
    n > 0 && EndsWith(s[..|s| - n], "lib/gcc/")
  }

  /**
    `entry.match?(%r{lib/gcc/\d+$})`: the pattern is not anchored at the
    start, and Ruby's `$` matches at the end of the string and before every
    line feed.
  */
  predicate GccVersioned(entry: string) {
    exists p :: 0 <= p <= |entry| && (p == |entry| || entry[p] == '\n') && EndsWithVersionedGccDir(entry[..p])
  }

  /** The condition of the GCC step: the keg is not gcc and some entry names a versioned GCC lib directory. */
  predicate GccStepFires(entries: seq<string>, gccKeg: bool) {
    !gccKeg && exists e :: e in entries && GccVersioned(e)
  }

  /**
    `rpath.prepend HOMEBREW_PREFIX/"opt/gcc/lib/gcc/current"` under the GCC
    condition: the old entries stay at the end, behind at most one new entry,
    which is GCC's directory.
  */
  function WithGccRuntime(entries: seq<string>, gccKeg: bool, homebrewPrefix: string): (r: seq<string>)
    ensures |entries| <= |r| <= |entries| + 1 && r[|r| - |entries|..] == entries
    ensures |r| > |entries| ==> r[0] == GccCurrentLibDir(homebrewPrefix)
  {
    if GccStepFires(entries, gccKeg) then [GccCurrentLibDir(homebrewPrefix)] + entries else entries
  }

  /** The list `change_rpath` joins with `:` when the file has an RPATH. */
  function NewRpathList(oldRpath: string, oldPrefix: string, newPrefix: string, gccKeg: bool, homebrewPrefix: string): seq<string> {
    WithGccRuntime(WithPrefixLib(RelocatedEntries(oldRpath, oldPrefix, newPrefix), newPrefix), gccKeg, homebrewPrefix)
  }

  /** `new_rpath`: absent exactly when the old RPATH is absent. */
  function NewRpath(oldRpath: Option<string>, oldPrefix: string, newPrefix: string, gccKeg: bool, homebrewPrefix: string): (r: Option<string>)
    ensures r.None? <==> oldRpath.None?
  {
    match oldRpath
    case None => None
    case Some(s) => Some(Join(NewRpathList(s, oldPrefix, newPrefix, gccKeg, homebrewPrefix), ':'))
  }

  /**
    `new_interpreter`: absent exactly when the old one is, and the preferred
    `ld.so` whenever that is readable.
  */
  function NewInterpreter(oldInterpreter: Option<string>, oldPrefix: string, newPrefix: string, ldSoReadable: bool): (r: Option<string>)
    ensures r.None? <==> oldInterpreter.None?
    ensures oldInterpreter.Some? && ldSoReadable ==> r == Some(LdSoPath(newPrefix))
    ensures oldInterpreter.Some? && !ldSoReadable ==> r == Some(ReplaceFirst(oldInterpreter.value, oldPrefix, newPrefix))
  {
    match oldInterpreter
    case None => None
    case Some(s) => if ldSoReadable then Some(LdSoPath(newPrefix)) else Some(ReplaceFirst(s, oldPrefix, newPrefix))
  }

  /**
    What `updated[field]` holds: set, to the computed value, exactly when a
    value was computed and it differs from the current one.
  */
  function Changed(current: Option<string>, computed: Option<string>): (r: Option<string>)
    ensures r.Some? <==> computed.Some? && computed != current
    ensures r.Some? ==> r == computed
  {
    if current != computed then computed else None
  }

  // ---------------------------------------------------------------------------
  // Properties of the RPATH pipeline

  lemma {:induction false} KeepRelocatedInOrder(entries: seq<string>, newPrefix: string)
    ensures IsSubsequence(KeepRelocated(entries, newPrefix), entries)
  {
    if entries == [] {
      EmptyIsSubsequence(entries);
    } else {
      var rest := KeepRelocated(entries[1..], newPrefix);
      KeepRelocatedInOrder(entries[1..], newPrefix);
      assert entries == [entries[0]] + entries[1..];
      if Relocated(entries[0], newPrefix) {
        SubsequenceTake(rest, entries[0], entries[1..]);
      } else {
        SubsequenceSkip(rest, entries[0], entries[1..]);
      }
    }
  }

  /**
    Before the two insertions, every entry is the substitution of some old
    entry and starts with the new prefix or `$ORIGIN`; every substituted
    entry of that shape is kept; and the kept entries are in their original order.
  */
  lemma SurvivingEntries(oldRpath: string, oldPrefix: string, newPrefix: string)
    ensures var olds := Split(oldRpath, ':');
            var kept := RelocatedEntries(oldRpath, oldPrefix, newPrefix);
            && (forall e :: e in kept ==>
                  Relocated(e, newPrefix) && exists o :: o in olds && e == ReplaceFirst(o, oldPrefix, newPrefix))
            && (forall o :: o in olds && Relocated(ReplaceFirst(o, oldPrefix, newPrefix), newPrefix) ==>
                  ReplaceFirst(o, oldPrefix, newPrefix) in kept)
            && IsSubsequence(kept, Substitute(olds, oldPrefix, newPrefix))
            && (forall x :: Relocated(x, newPrefix) ==> multiset(kept)[x] == multiset(Substitute(olds, oldPrefix, newPrefix))[x])
  {
    var olds := Split(oldRpath, ':');
    KeptComeFromOlds(olds, oldPrefix, newPrefix);
    RelocatedSubstitutionsKept(olds, oldPrefix, newPrefix);
    KeepRelocatedInOrder(Substitute(olds, oldPrefix, newPrefix), newPrefix);
  }

  lemma KeptComeFromOlds(olds: seq<string>, oldPrefix: string, newPrefix: string)
    ensures forall e :: e in KeepRelocated(Substitute(olds, oldPrefix, newPrefix), newPrefix) ==>
              exists o :: o in olds && e == ReplaceFirst(o, oldPrefix, newPrefix)
  {
    var subs := Substitute(olds, oldPrefix, newPrefix);
    forall e | e in KeepRelocated(subs, newPrefix)
      ensures exists o :: o in olds && e == ReplaceFirst(o, oldPrefix, newPrefix)
    {
      var k :| 0 <= k < |subs| && subs[k] == e;
      assert olds[k] in olds;
    }
  }

  lemma RelocatedSubstitutionsKept(olds: seq<string>, oldPrefix: string, newPrefix: string)
    ensures forall o :: o in olds && Relocated(ReplaceFirst(o, oldPrefix, newPrefix), newPrefix) ==>
              ReplaceFirst(o, oldPrefix, newPrefix) in KeepRelocated(Substitute(olds, oldPrefix, newPrefix), newPrefix)
  {
    var subs := Substitute(olds, oldPrefix, newPrefix);
    forall o | o in olds && Relocated(ReplaceFirst(o, oldPrefix, newPrefix), newPrefix)
      ensures ReplaceFirst(o, oldPrefix, newPrefix) in KeepRelocated(subs, newPrefix)
    {
      var k :| 0 <= k < |olds| && olds[k] == o;
      assert subs[k] in subs;
    }
  }

  /**
    An entry starting with `$ORIGIN` survives unchanged when the old prefix
    does not occur in it (when it does occur, `sub` rewrites it like any other entry).
  */
  lemma OriginEntrySurvives(oldRpath: string, oldPrefix: string, newPrefix: string, o: string)
    requires o in Split(oldRpath, ':') && StartsWith(o, ORIGIN) && !Contains(o, oldPrefix)
    ensures o in RelocatedEntries(oldRpath, oldPrefix, newPrefix)
  {
    SurvivingEntries(oldRpath, oldPrefix, newPrefix);
  }

  /** An entry under the old prefix is moved under the new one and kept. */
  lemma OldPrefixEntryMoves(oldRpath: string, oldPrefix: string, newPrefix: string, o: string)
    requires o in Split(oldRpath, ':') && StartsWith(o, oldPrefix)
    ensures newPrefix + o[|oldPrefix|..] in RelocatedEntries(oldRpath, oldPrefix, newPrefix)
  {
    ReplaceFirstAtStart(o, oldPrefix, newPrefix);
    assert StartsWith(newPrefix + o[|oldPrefix|..], newPrefix);
    SurvivingEntries(oldRpath, oldPrefix, newPrefix);
  }

  /**
    The append step adds the new prefix's lib directory at the end only when it
    is missing: it is always present afterwards, never gains a second copy,
    and the entries before it are untouched; when it is already present nothing changes.
  */
  lemma PrefixLibAppendedOnce(entries: seq<string>, newPrefix: string)
    ensures var r := WithPrefixLib(entries, newPrefix);
            var lib := PrefixLibDir(newPrefix);
            && lib in r
            && |entries| <= |r| <= |entries| + 1
            && r[..|entries|] == entries
            && multiset(r)[lib] == (if lib in entries then multiset(entries)[lib] else 1)
            && (lib in entries ==> r == entries)
            && (lib !in entries ==> r == entries + [lib])
  {
    var lib := PrefixLibDir(newPrefix);
    if lib !in entries {
      assert multiset(entries)[lib] == 0;
      assert (entries + [lib])[..|entries|] == entries;
    }
  }

  /**
    The GCC step puts GCC's "current" lib directory first exactly when the
    keg is not gcc and some entry ends in `lib/gcc/<digits>`; the other
    entries follow unchanged and in order. Otherwise nothing changes.
  */
  lemma GccRuntimePrepended(entries: seq<string>, gccKeg: bool, homebrewPrefix: string)
    ensures var r := WithGccRuntime(entries, gccKeg, homebrewPrefix);
            && (GccStepFires(entries, gccKeg) <==> |r| == |entries| + 1)
            && (GccStepFires(entries, gccKeg) ==> r[0] == GccCurrentLibDir(homebrewPrefix) && r[1..] == entries)
            && (!GccStepFires(entries, gccKeg) ==> r == entries)
  {
  }

  /** The new prefix's lib directory is in every computed RPATH list. */
  lemma PrefixLibInNewRpath(oldRpath: string, oldPrefix: string, newPrefix: string, gccKeg: bool, homebrewPrefix: string)
    ensures PrefixLibDir(newPrefix) in NewRpathList(oldRpath, oldPrefix, newPrefix, gccKeg, homebrewPrefix)
  {
    var w := WithPrefixLib(RelocatedEntries(oldRpath, oldPrefix, newPrefix), newPrefix);
    PrefixLibAppendedOnce(RelocatedEntries(oldRpath, oldPrefix, newPrefix), newPrefix);
    GccRuntimePrepended(w, gccKeg, homebrewPrefix);
  }

  /** No entry of `l` contains the character `c`. */
  predicate FreeOf(l: seq<string>, c: char) {
    forall k :: 0 <= k < |l| ==> c !in l[k]
  }

  lemma SubstituteFreeOf(entries: seq<string>, oldPrefix: string, newPrefix: string, c: char)
    requires FreeOf(entries, c) && c !in newPrefix
    ensures FreeOf(Substitute(entries, oldPrefix, newPrefix), c)
  {
    var subs := Substitute(entries, oldPrefix, newPrefix);
    forall k | 0 <= k < |subs| ensures c !in subs[k] {
      ReplaceFirstKeepsOut(entries[k], oldPrefix, newPrefix, c);
    }
  }

  /** The entries kept before the insertions contain no `:` when the new prefix has none. */
  lemma RelocatedEntriesFreeOfColon(oldRpath: string, oldPrefix: string, newPrefix: string)
    requires ':' !in newPrefix
    ensures FreeOf(RelocatedEntries(oldRpath, oldPrefix, newPrefix), ':')
  {
    var subs := Substitute(Split(oldRpath, ':'), oldPrefix, newPrefix);
    SubstituteFreeOf(Split(oldRpath, ':'), oldPrefix, newPrefix, ':');
    var kept := KeepRelocated(subs, newPrefix);
    forall k | 0 <= k < |kept| ensures ':' !in kept[k] {
      assert kept[k] in subs;
    }
  }

  /** After the append step the list is `:`-free and its last entry is not empty. */
  lemma WithPrefixLibJoinable(kept: seq<string>, newPrefix: string)
    requires newPrefix != [] && ':' !in newPrefix
    requires FreeOf(kept, ':') && forall k :: 0 <= k < |kept| ==> Relocated(kept[k], newPrefix)
    ensures var w := WithPrefixLib(kept, newPrefix);
            && FreeOf(w, ':') && w != [] && w[|w| - 1] != []
            && forall k :: 0 <= k < |w| ==> Relocated(w[k], newPrefix)
  {
    var w := WithPrefixLib(kept, newPrefix);
    if PrefixLibDir(newPrefix) in kept {
      assert Relocated(kept[|kept| - 1], newPrefix);
    } else {
      forall k | 0 <= k < |w| ensures ':' !in w[k] && Relocated(w[k], newPrefix) {
        if k < |kept| {
          assert w[k] == kept[k];
        }
      }
    }
  }

  /** After the GCC step the list is still `:`-free and ends with the same entry. */
  lemma WithGccRuntimeJoinable(w: seq<string>, gccKeg: bool, homebrewPrefix: string)
    requires ':' !in homebrewPrefix && FreeOf(w, ':') && w != [] && w[|w| - 1] != []
    ensures var l := WithGccRuntime(w, gccKeg, homebrewPrefix);
            FreeOf(l, ':') && l != [] && l[|l| - 1] != []
  {
    var l := WithGccRuntime(w, gccKeg, homebrewPrefix);
    if l != w {
      forall k | 0 <= k < |l| ensures ':' !in l[k] {
        if k > 0 {
          assert l[k] == w[k - 1];
        }
      }
    }
  }

  /**
    With a new prefix and a Homebrew prefix that are non-empty and free of
    `:`, the joined RPATH splits back into exactly the computed list: the
    `:`-joined string loses no entry and gains none.
  */
  lemma RpathRoundTrip(oldRpath: string, oldPrefix: string, newPrefix: string, gccKeg: bool, homebrewPrefix: string)
    requires newPrefix != [] && ':' !in newPrefix && ':' !in homebrewPrefix
    ensures var l := NewRpathList(oldRpath, oldPrefix, newPrefix, gccKeg, homebrewPrefix);
            Split(Join(l, ':'), ':') == l
  {
    var kept := RelocatedEntries(oldRpath, oldPrefix, newPrefix);
    RelocatedEntriesFreeOfColon(oldRpath, oldPrefix, newPrefix);
    WithPrefixLibJoinable(kept, newPrefix);
    var w := WithPrefixLib(kept, newPrefix);
    WithGccRuntimeJoinable(w, gccKeg, homebrewPrefix);
    SplitJoin(WithGccRuntime(w, gccKeg, homebrewPrefix), ':');
  }

  lemma {:induction false} SubstituteSelf(entries: seq<string>, prefix: string)
    ensures Substitute(entries, prefix, prefix) == entries
  {
    forall k | 0 <= k < |entries| ensures Substitute(entries, prefix, prefix)[k] == entries[k] {
      ReplaceFirstSelf(entries[k], prefix);
    }
  }

  lemma {:induction false} KeepAllRelocated(entries: seq<string>, newPrefix: string)
    requires forall k :: 0 <= k < |entries| ==> Relocated(entries[k], newPrefix)
    ensures KeepRelocated(entries, newPrefix) == entries
  {
    if entries != [] {
      KeepAllRelocated(entries[1..], newPrefix);
      assert entries == [entries[0]] + entries[1..];
    }
  }

  /**
    Relocating, in place, a `:`-free list of relocated entries that already
    holds the new prefix's lib directory only re-applies the GCC step.
  */
  lemma RelocateAgain(l: seq<string>, newPrefix: string, gccKeg: bool, homebrewPrefix: string)
    requires Rerunnable(l, newPrefix)
    ensures NewRpathList(Join(l, ':'), newPrefix, newPrefix, gccKeg, homebrewPrefix) == WithGccRuntime(l, gccKeg, homebrewPrefix)
  {
    SplitJoin(l, ':');
    SubstituteSelf(l, newPrefix);
    KeepAllRelocated(l, newPrefix);
    assert RelocatedEntries(Join(l, ':'), newPrefix, newPrefix) == l;
  }

  /**
    Relocating an already relocated RPATH again, in place (old prefix equal
    to the new prefix), gives the same string back, provided the first pass
    did not prepend GCC's lib directory.
  */
  lemma RelocatedRpathIsFixedPoint(oldRpath: string, oldPrefix: string, newPrefix: string, gccKeg: bool, homebrewPrefix: string)
    requires newPrefix != [] && ':' !in newPrefix && ':' !in homebrewPrefix
    requires !GccStepFires(WithPrefixLib(RelocatedEntries(oldRpath, oldPrefix, newPrefix), newPrefix), gccKeg)
    ensures var once := Join(NewRpathList(oldRpath, oldPrefix, newPrefix, gccKeg, homebrewPrefix), ':');
            Join(NewRpathList(once, newPrefix, newPrefix, gccKeg, homebrewPrefix), ':') == once
  {
    var kept := RelocatedEntries(oldRpath, oldPrefix, newPrefix);
    FirstPassRerunnable(oldRpath, oldPrefix, newPrefix);
    var w := WithPrefixLib(kept, newPrefix);
    assert NewRpathList(oldRpath, oldPrefix, newPrefix, gccKeg, homebrewPrefix) == w;
    RelocateAgain(w, newPrefix, gccKeg, homebrewPrefix);
  }

  /**
    When the first pass did prepend GCC's lib directory and that directory
    lies under the new prefix, relocating the result again in place prepends
    it once more: repeated relocation is not idempotent for such files.
  */
  lemma GccStepRepeats(oldRpath: string, oldPrefix: string, newPrefix: string, gccKeg: bool, homebrewPrefix: string)
    requires newPrefix != [] && ':' !in newPrefix && ':' !in homebrewPrefix
    requires GccStepFires(WithPrefixLib(RelocatedEntries(oldRpath, oldPrefix, newPrefix), newPrefix), gccKeg)
    requires StartsWith(GccCurrentLibDir(homebrewPrefix), newPrefix)
    ensures var once := Join(NewRpathList(oldRpath, oldPrefix, newPrefix, gccKeg, homebrewPrefix), ':');
            Join(NewRpathList(once, newPrefix, newPrefix, gccKeg, homebrewPrefix), ':')
              == GccCurrentLibDir(homebrewPrefix) + [':'] + once
  {
    var kept := RelocatedEntries(oldRpath, oldPrefix, newPrefix);
    FirstPassRerunnable(oldRpath, oldPrefix, newPrefix);
    var w := WithPrefixLib(kept, newPrefix);
    assert NewRpathList(oldRpath, oldPrefix, newPrefix, gccKeg, homebrewPrefix) == [GccCurrentLibDir(homebrewPrefix)] + w;
    GccPrependedAgain(w, newPrefix, gccKeg, homebrewPrefix);
  }

  /**
    When the first pass did prepend GCC's lib directory but that directory
    is not relocated (it lies outside the new prefix and does not start with
    `$ORIGIN`), relocating the result again in place gives the same string
    back: the second pass drops the directory as unrelocated and the GCC
    step prepends it again.
  */
  lemma GccFiredYetFixedPoint(oldRpath: string, oldPrefix: string, newPrefix: string, gccKeg: bool, homebrewPrefix: string)
    requires newPrefix != [] && ':' !in newPrefix && ':' !in homebrewPrefix
    requires GccStepFires(WithPrefixLib(RelocatedEntries(oldRpath, oldPrefix, newPrefix), newPrefix), gccKeg)
    requires !Relocated(GccCurrentLibDir(homebrewPrefix), newPrefix)
    ensures var once := Join(NewRpathList(oldRpath, oldPrefix, newPrefix, gccKeg, homebrewPrefix), ':');
            Join(NewRpathList(once, newPrefix, newPrefix, gccKeg, homebrewPrefix), ':') == once
  {
    var kept := RelocatedEntries(oldRpath, oldPrefix, newPrefix);
    FirstPassRerunnable(oldRpath, oldPrefix, newPrefix);
    var w := WithPrefixLib(kept, newPrefix);
    assert NewRpathList(oldRpath, oldPrefix, newPrefix, gccKeg, homebrewPrefix) == [GccCurrentLibDir(homebrewPrefix)] + w;
    GccDroppedAndReadded(w, newPrefix, gccKeg, homebrewPrefix);
  }

  /** `GccFiredYetFixedPoint` for the list right after the append step. */
  lemma GccDroppedAndReadded(w: seq<string>, newPrefix: string, gccKeg: bool, homebrewPrefix: string)
    requires ':' !in homebrewPrefix && Rerunnable(w, newPrefix) && GccStepFires(w, gccKeg)
    requires !Relocated(GccCurrentLibDir(homebrewPrefix), newPrefix)
    ensures var l := [GccCurrentLibDir(homebrewPrefix)] + w;
            NewRpathList(Join(l, ':'), newPrefix, newPrefix, gccKeg, homebrewPrefix) == l
  {
    var g := GccCurrentLibDir(homebrewPrefix);
    var l := [g] + w;
    assert ':' !in g;
    assert FreeOf(l, ':') by {
      forall k | 0 <= k < |l| ensures ':' !in l[k] {
        if k > 0 {
          assert l[k] == w[k - 1];
        }
      }
    }
    SplitJoin(l, ':');
    SubstituteSelf(l, newPrefix);
    KeepAllRelocated(w, newPrefix);
    assert l[1..] == w;
    assert KeepRelocated(l, newPrefix) == w;
    assert RelocatedEntries(Join(l, ':'), newPrefix, newPrefix) == w;
  }

  /**
    The premises of `GccFiredYetFixedPoint` can all hold at once: the RPATH
    `/new/lib/gcc/12`, both prefixes `/new` and the Homebrew prefix `/h`.
  */
  lemma GccFiredYetFixedPointExample()
    ensures GccStepFires(WithPrefixLib(RelocatedEntries("/new/lib/gcc/12", "/new", "/new"), "/new"), false)
    ensures !Relocated(GccCurrentLibDir("/h"), "/new")
  {
    VersionedEntryKept();
    GccDirOutsideNew();
  }

  lemma VersionedEntryKept()
    ensures GccStepFires(WithPrefixLib(RelocatedEntries("/new/lib/gcc/12", "/new", "/new"), "/new"), false)
  {
    InPlaceGccCaseKept();
    InPlaceGccCaseFires();
  }

  lemma InPlaceGccCaseKept()
    ensures RelocatedEntries("/new/lib/gcc/12", "/new", "/new") == ["/new/lib/gcc/12"]
  {
    MovedGccEntryText();
    SingleEntryRelocated("/new/lib/gcc/12", "/new", "/new");
  }

  lemma InPlaceGccCaseFires()
    ensures GccStepFires(WithPrefixLib(["/new/lib/gcc/12"], "/new"), false)
  {
    var e := "/new/lib/gcc/12";
    GccExample();
    assert e in WithPrefixLib([e], "/new");
  }

  lemma GccDirOutsideNew()
    ensures !Relocated(GccCurrentLibDir("/h"), "/new")
  {
    var g := GccCurrentLibDir("/h");
    assert g[..2] == "/h";
    assert g[0] == '/' && g[1] == 'h' && "/new"[1] == 'n';
    HeadNotRelocated(g, "/new");
  }

  /** The list after the append step of a first pass is one that a second pass leaves alone up to the GCC step. */
  lemma FirstPassRerunnable(oldRpath: string, oldPrefix: string, newPrefix: string)
    requires newPrefix != [] && ':' !in newPrefix
    ensures Rerunnable(WithPrefixLib(RelocatedEntries(oldRpath, oldPrefix, newPrefix), newPrefix), newPrefix)
  {
    var kept := RelocatedEntries(oldRpath, oldPrefix, newPrefix);
    RelocatedEntriesFreeOfColon(oldRpath, oldPrefix, newPrefix);
    WithPrefixLibJoinable(kept, newPrefix);
  }

  /**
    A list that relocating in place leaves alone up to the GCC step: `:`-free,
    non-empty with a non-empty last entry, all entries relocated, and
    holding the new prefix's lib directory.
  */
  ghost predicate Rerunnable(l: seq<string>, newPrefix: string) {
    && FreeOf(l, ':') && l != [] && l[|l| - 1] != []
    && (forall k :: 0 <= k < |l| ==> Relocated(l[k], newPrefix))
    && PrefixLibDir(newPrefix) in l
  }

  /** `GccStepRepeats` for the list right after the append step. */
  lemma GccPrependedAgain(w: seq<string>, newPrefix: string, gccKeg: bool, homebrewPrefix: string)
    requires ':' !in homebrewPrefix && Rerunnable(w, newPrefix) && GccStepFires(w, gccKeg)
    requires StartsWith(GccCurrentLibDir(homebrewPrefix), newPrefix)
    ensures var g := GccCurrentLibDir(homebrewPrefix);
            Join(NewRpathList(Join([g] + w, ':'), newPrefix, newPrefix, gccKeg, homebrewPrefix), ':')
              == g + [':'] + Join([g] + w, ':')
  {
    var g := GccCurrentLibDir(homebrewPrefix);
    var l := [g] + w;
    PrependRerunnable(w, g, newPrefix);
    GccStepFiresOnLonger(w, g, gccKeg);
    RelocateAgain(l, newPrefix, gccKeg, homebrewPrefix);
    JoinCons(g, l, ':');
  }

  lemma PrependRerunnable(w: seq<string>, g: string, newPrefix: string)
    requires Rerunnable(w, newPrefix) && ':' !in g && StartsWith(g, newPrefix)
    ensures Rerunnable([g] + w, newPrefix)
  {
    var l := [g] + w;
    forall k | 0 <= k < |l| ensures ':' !in l[k] && Relocated(l[k], newPrefix) {
      if k > 0 {
        assert l[k] == w[k - 1];
      }
    }
    assert PrefixLibDir(newPrefix) in l;
  }

  lemma GccStepFiresOnLonger(w: seq<string>, x: string, gccKeg: bool)
    requires GccStepFires(w, gccKeg)
    ensures GccStepFires([x] + w, gccKeg)
  {
    var e :| e in w && GccVersioned(e);
    assert e in [x] + w;
  }

  /**
    `lib/gcc/\d+` at the end of `s`, stated the way the pattern reads: some
    split point `j` with `lib/gcc/` just before it and only digits from it to the end.
  */
  ghost predicate VersionDigitsFrom(s: string, j: int) {
    0 <= j < |s| && EndsWith(s[..j], "lib/gcc/") && forall k :: j <= k < |s| ==> IsDigit(s[k])
  }

  lemma VersionedGccDirMatchesPattern(s: string)
    ensures EndsWithVersionedGccDir(s) <==> exists j :: VersionDigitsFrom(s, j)
  {
    var n := TrailingDigits(s);
    if EndsWithVersionedGccDir(s) {
      assert VersionDigitsFrom(s, |s| - n);
    }
    if j :| VersionDigitsFrom(s, j) {
      assert s[..j][j - 1] == '/';
      assert n == |s| - j;
    }
  }

  /**
    `entry.match?(%r{lib/gcc/\d+$})` read off the pattern: some end of line
    `p` (the end of the string or a line feed) with `lib/gcc/` and then
    only digits, at least one, just before it.
  */
  lemma GccVersionedMatchesPattern(entry: string)
    ensures GccVersioned(entry) <==>
              exists p, j :: 0 <= p <= |entry| && (p == |entry| || entry[p] == '\n') && VersionDigitsFrom(entry[..p], j)
  {
    if GccVersioned(entry) {
      var p :| 0 <= p <= |entry| && (p == |entry| || entry[p] == '\n') && EndsWithVersionedGccDir(entry[..p]);
      VersionedGccDirMatchesPattern(entry[..p]);
      var j :| VersionDigitsFrom(entry[..p], j);
    }
    if p, j :| 0 <= p <= |entry| && (p == |entry| || entry[p] == '\n') && VersionDigitsFrom(entry[..p], j) {
      VersionedGccDirMatchesPattern(entry[..p]);
    }
  }

  // ---------------------------------------------------------------------------
  // Properties of the interpreter choice

  /** `p` occurs in `s` at `i` and at no earlier position. */
  ghost predicate FirstOccurrence(s: string, p: string, i: int) {
    OccursAt(s, p, i) && forall j :: 0 <= j < i ==> !OccursAt(s, p, j)
  }

  /**
    The interpreter is absent exactly when it was; the preferred `ld.so`
    wins whenever it is readable; otherwise the first occurrence of the old
    prefix, wherever it lies, is replaced by the new prefix (so an
    interpreter under the old prefix ends up under the new one), and one not
    mentioning the old prefix is left alone.
  */
  lemma InterpreterRelocation(oldInterpreter: Option<string>, oldPrefix: string, newPrefix: string, ldSoReadable: bool)
    ensures var r := NewInterpreter(oldInterpreter, oldPrefix, newPrefix, ldSoReadable);
            && (r.None? <==> oldInterpreter.None?)
            && (oldInterpreter.Some? && ldSoReadable ==> r == Some(LdSoPath(newPrefix)))
            && (oldInterpreter.Some? && StartsWith(oldInterpreter.value, oldPrefix) ==>
                  r.Some? && StartsWith(r.value, newPrefix))
            && (oldInterpreter.Some? && !ldSoReadable && StartsWith(oldInterpreter.value, oldPrefix) ==>
                  r == Some(newPrefix + oldInterpreter.value[|oldPrefix|..]))
            && (oldInterpreter.Some? && !ldSoReadable && !Contains(oldInterpreter.value, oldPrefix) ==>
                  r == oldInterpreter)
            && (oldInterpreter.Some? && !ldSoReadable && Contains(oldInterpreter.value, oldPrefix) ==>
                  exists i :: FirstOccurrence(oldInterpreter.value, oldPrefix, i)
                           && r == Some(oldInterpreter.value[..i] + newPrefix + oldInterpreter.value[i + |oldPrefix|..]))
  {
    if oldInterpreter.Some? {
      var s := oldInterpreter.value;
      if StartsWith(s, oldPrefix) {
        ReplaceFirstAtStart(s, oldPrefix, newPrefix);
      }
    }
  }

  // ---------------------------------------------------------------------------
  // Worked cases

  /** A versioned GCC entry: the GCC step fires for a keg that is not gcc. */
  lemma GccExample()
    ensures GccVersioned("/new/lib/gcc/12")
  {
    var s := "/new/lib/gcc/12";
    assert TrailingDigits(s) == 2;
    assert s[..|s| - 2][|s| - 2 - 8..] == "lib/gcc/";
    assert s[..|s|] == s;
    assert EndsWithVersionedGccDir(s[..|s|]);
  }

  /** An RPATH of one `:`-free entry splits into that entry alone. */
  lemma SingleEntrySplit(e: string)
    requires e != [] && ':' !in e
    ensures Split(e, ':') == [e]
  {
    assert Join([e], ':') == e;
    SplitJoin([e], ':');
  }

  /** An RPATH of one entry under the old prefix relocates to that entry under the new prefix. */
  lemma SingleEntryRelocated(e: string, oldPrefix: string, newPrefix: string)
    requires e != [] && ':' !in e && StartsWith(e, oldPrefix)
    ensures RelocatedEntries(e, oldPrefix, newPrefix) == [newPrefix + e[|oldPrefix|..]]
  {
    SingleEntrySplit(e);
    ReplaceFirstAtStart(e, oldPrefix, newPrefix);
    var t := newPrefix + e[|oldPrefix|..];
    assert Substitute([e], oldPrefix, newPrefix) == [t];
    assert t[..|newPrefix|] == newPrefix;
    KeepAllRelocated([t], newPrefix);
  }

  /** The entry text of the GCC case, before and after the move. */
  lemma MovedGccEntryText()
    ensures "/new" + "/old/lib/gcc/12"[4..] == "/new/lib/gcc/12"
    ensures "/new" + "/new/lib/gcc/12"[4..] == "/new/lib/gcc/12"
  {
  }

  /** The append step on the moved GCC entry adds `/new/lib` behind it. */
  lemma GccCaseAppend()
    ensures WithPrefixLib(["/new/lib/gcc/12"], "/new") == ["/new/lib/gcc/12", "/new/lib"]
  {
    assert PrefixLibDir("/new") == "/new/lib";
    assert |"/new/lib/gcc/12"| != |"/new/lib"|;
    assert "/new/lib" !in ["/new/lib/gcc/12"];
  }

  /**
    The GCC case of the pipeline end to end: `/old/lib/gcc/12` moved from
    `/old` to `/new` for a keg other than gcc, with an empty Homebrew prefix,
    becomes GCC's directory, the moved entry and the new prefix's `lib`, in
    that order.
  */
  lemma GccPipelineExample()
    ensures NewRpathList("/old/lib/gcc/12", "/old", "/new", false, "")
              == ["/opt/gcc/lib/gcc/current", "/new/lib/gcc/12", "/new/lib"]
  {
    GccCaseKept();
    GccCaseAppend();
    GccCasePrepend();
  }

  /** The substitution and filter stages of the GCC case. */
  lemma GccCaseKept()
    ensures RelocatedEntries("/old/lib/gcc/12", "/old", "/new") == ["/new/lib/gcc/12"]
  {
    MovedGccEntryText();
    SingleEntryRelocated("/old/lib/gcc/12", "/old", "/new");
  }

  /** The GCC step fires on the list after the append step and puts GCC's directory in front. */
  lemma GccCasePrepend()
    ensures WithGccRuntime(["/new/lib/gcc/12", "/new/lib"], false, "")
              == ["/opt/gcc/lib/gcc/current", "/new/lib/gcc/12", "/new/lib"]
  {
    var w := ["/new/lib/gcc/12", "/new/lib"];
    GccExample();
    assert w[0] in w;
    assert GccCurrentLibDir("") == "/opt/gcc/lib/gcc/current";
  }
  /** The characters of `/other/unrelated` that rule `/old` out near its start. */
  lemma UnrelatedEntryText()
    ensures var s := "/other/unrelated"; |s| == 16 && s[0] == '/' && s[1] == 'o' && s[2] == 't'
    ensures "/old"[0] == '/' && "/old"[2] == 'l' && "/new"[1] == 'n' && ORIGIN[0] == '$'
  {
  }

  /** `/other/unrelated` does not contain `/old` early enough to become relocated under `/new`. */
  lemma UnrelatedEntryDropped()
    ensures !Relocated(ReplaceFirst("/other/unrelated", "/old", "/new"), "/new")
  {
    UnrelatedEntryHead();
    assert "/new"[1] == 'n';
    HeadNotRelocated(ReplaceFirst("/other/unrelated", "/old", "/new"), "/new");
  }

  /** The substitution leaves the first two characters of `/other/unrelated` alone. */
  lemma UnrelatedEntryHead()
    ensures var t := ReplaceFirst("/other/unrelated", "/old", "/new"); 2 <= |t| && t[0] == '/' && t[1] == 'o'
  {
    UnrelatedEntryText();
    ReplaceFirstKeepsFirstTwo("/other/unrelated", "/old", "/new");
  }

  /** A pattern that cannot start at either of the first two positions leaves them alone. */
  lemma ReplaceFirstKeepsFirstTwo(s: string, p: string, r: string)
    requires 3 <= |s| && 3 <= |p| && s[2] != p[2] && s[1] != p[0]
    ensures var t := ReplaceFirst(s, p, r); 2 <= |t| && t[0] == s[0] && t[1] == s[1]
  {
    MismatchAt(s, p, 0, 2);
    MismatchAt(s, p, 1, 0);
    ReplaceFirstKeepsHead(s, p, r, 2);
    var t := ReplaceFirst(s, p, r);
    assert t[..2] == s[..2];
    assert t[0] == t[..2][0] && t[1] == t[..2][1];
  }

  /** An entry whose first character is not `$` and whose second differs from the new prefix's is not relocated. */
  lemma HeadNotRelocated(t: string, newPrefix: string)
    requires 2 <= |t| && 2 <= |newPrefix| && t[0] != '$' && t[1] != newPrefix[1]
    ensures !Relocated(t, newPrefix)
  {
  }

  /** An entry with no line feed and no trailing digit names no versioned GCC directory. */
  lemma NotGccVersioned(e: string)
    requires (forall k :: 0 <= k < |e| ==> e[k] != '\n') && (e == [] || !IsDigit(e[|e| - 1]))
    ensures !GccVersioned(e)
  {
    if p :| 0 <= p <= |e| && (p == |e| || e[p] == '\n') && EndsWithVersionedGccDir(e[..p]) {
      assert p == |e| && e[..p] == e;
    }
  }

  /** `/new/lib` names no versioned GCC directory. */
  lemma PrefixLibNotVersioned()
    ensures !GccVersioned("/new/lib")
  {
    var e := "/new/lib";
    assert |e| == 8 && !IsDigit(e[7]);
    assert forall k :: 0 <= k < |e| ==> e[k] != '\n';
    NotGccVersioned(e);
  }

  /** The split stage of the filter case. */
  lemma FilterCaseSplit()
    ensures Split("/old/lib:/other/unrelated", ':') == ["/old/lib", "/other/unrelated"]
  {
    var l := ["/old/lib", "/other/unrelated"];
    assert Join(l, ':') == "/old/lib:/other/unrelated" by {
      assert l[1..] == ["/other/unrelated"];
    }
    SplitJoin(l, ':');
  }

  /** The substitution stage of the filter case. */
  lemma FilterCaseSubstitute()
    ensures Substitute(["/old/lib", "/other/unrelated"], "/old", "/new")
              == ["/new/lib", ReplaceFirst("/other/unrelated", "/old", "/new")]
  {
    ReplaceFirstAtStart("/old/lib", "/old", "/new");
    assert "/new" + "/old/lib"[4..] == "/new/lib";
  }

  /** The filter stage of the filter case. */
  lemma FilterCaseFilter()
    ensures KeepRelocated(["/new/lib", ReplaceFirst("/other/unrelated", "/old", "/new")], "/new") == ["/new/lib"]
  {
    var u := ReplaceFirst("/other/unrelated", "/old", "/new");
    UnrelatedEntryDropped();
    assert KeepRelocated([u], "/new") == [];
    assert ["/new/lib", u][1..] == [u];
    assert StartsWith("/new/lib", "/new");
  }

  /** The substitution and filter stages of the filter case. */
  lemma FilterCaseKept()
    ensures RelocatedEntries("/old/lib:/other/unrelated", "/old", "/new") == ["/new/lib"]
  {
    FilterCaseSplit();
    FilterCaseSubstitute();
    FilterCaseFilter();
  }

  /**
    The filter case of the pipeline end to end: of `/old/lib:/other/unrelated`
    moved from `/old` to `/new`, only `/new/lib` stays, it is not appended a
    second time, and the GCC step does not fire.
  */
  lemma FilterPipelineExample(gccKeg: bool, homebrewPrefix: string)
    ensures NewRpathList("/old/lib:/other/unrelated", "/old", "/new", gccKeg, homebrewPrefix) == ["/new/lib"]
  {
    FilterCaseKept();
    FilterCaseAppend();
    FilterCaseNoGccStep(gccKeg, homebrewPrefix);
  }

  /** The append step of the filter case: `/new/lib` is already there. */
  lemma FilterCaseAppend()
    ensures WithPrefixLib(["/new/lib"], "/new") == ["/new/lib"]
  {
    assert PrefixLibDir("/new") == "/new/lib";
  }

  /** The GCC step of the filter case does not fire. */
  lemma FilterCaseNoGccStep(gccKeg: bool, homebrewPrefix: string)
    ensures WithGccRuntime(["/new/lib"], gccKeg, homebrewPrefix) == ["/new/lib"]
  {
    PrefixLibNotVersioned();
    assert !GccStepFires(["/new/lib"], gccKeg);
  }
}

=== FILE: subsequences.dfy ===
/**
  "`a` keeps some of the elements of `b`, in `b`'s order", witnessed by the
  strictly increasing list of positions in `b` that `a` was taken from.
*/
module Subsequences {

  ghost predicate Embeds<T>(a: seq<T>, b: seq<T>, idx: seq<nat>) {
    && |idx| == |a|
    && (forall k :: 0 <= k < |idx| ==> idx[k] < |b| && a[k] == b[idx[k]])
    && (forall k, l :: 0 <= k < l < |idx| ==> idx[k] < idx[l])
  }

  ghost predicate IsSubsequence<T>(a: seq<T>, b: seq<T>) {
    exists idx :: Embeds(a, b, idx)
  }

  function Shift(idx: seq<nat>): (r: seq<nat>)
    ensures |r| == |idx| && forall k :: 0 <= k < |r| ==> r[k] == idx[k] + 1
  {
    seq(|idx|, k requires 0 <= k < |idx| => idx[k] + 1)
  }

  lemma EmptyIsSubsequence<T>(b: seq<T>)
    ensures IsSubsequence([], b)
  {
    assert Embeds([], b, []);
  }

  /** Dropping the head of `b`: whatever was a subsequence of the tail is one of the whole. */
  lemma SubsequenceSkip<T>(a: seq<T>, x: T, b: seq<T>)
    requires IsSubsequence(a, b)
    ensures IsSubsequence(a, [x] + b)
  {
    var idx :| Embeds(a, b, idx);
    assert Embeds(a, [x] + b, Shift(idx));
  }

  /** Keeping the head of `b`. */
  lemma SubsequenceTake<T>(a: seq<T>, x: T, b: seq<T>)
    requires IsSubsequence(a, b)
    ensures IsSubsequence([x] + a, [x] + b)
  {
    var idx :| Embeds(a, b, idx);
    var idx' := [0] + Shift(idx);
    assert Embeds([x] + a, [x] + b, idx');
  }

  /** Appending to `b`: whatever was a subsequence of `b` is one of the longer list. */
  lemma SubsequenceSnocSkip<T>(a: seq<T>, b: seq<T>, x: T)
    requires IsSubsequence(a, b)
    ensures IsSubsequence(a, b + [x])
  {
    var idx :| Embeds(a, b, idx);
    assert Embeds(a, b + [x], idx);
  }

  /** Appending the same element to both. */
  lemma SubsequenceSnocTake<T>(a: seq<T>, b: seq<T>, x: T)
    requires IsSubsequence(a, b)
    ensures IsSubsequence(a + [x], b + [x])
  {
    var idx: seq<nat> :| Embeds(a, b, idx);
    var idx': seq<nat> := idx + [|b|];
    assert forall k :: 0 <= k < |idx| ==> idx'[k] == idx[k] < |b|;
    assert Embeds(a + [x], b + [x], idx');
  }

  /** Every element of a subsequence is an element of the whole. */
  lemma SubsequenceMember<T>(a: seq<T>, b: seq<T>, m: int)
    requires IsSubsequence(a, b) && 0 <= m < |a|
    ensures a[m] in b
  {
    var idx :| Embeds(a, b, idx);
    assert a[m] == b[idx[m]];
  }
}

=== FILE: text.dfy ===
/**
  The string operations the relocation code relies on, with Ruby's semantics:
  `start_with?`, `end_with?`, `include?`, `String#sub` with a string pattern
  (first occurrence, anywhere), `String#split` with a one-character separator
  (trailing empty fields dropped) and `Array#join`.
*/
module Text {
  import opened Wrappers

  predicate StartsWith(s: string, p: string) {
    |p| <= |s| && s[..|p|] == p
  }

  predicate EndsWith(s: string, p: string) {
    |p| <= |s| && s[|s| - |p|..] == p
  }

  /** `p` occurs in `s` starting at index `i`. */
  predicate OccursAt(s: string, p: string, i: int) {
    0 <= i && i + |p| <= |s| && s[i..i + |p|] == p
  }

  /** Ruby's `s.include?(p)`. */
  predicate Contains(s: string, p: string) {
    exists i :: 0 <= i <= |s| && OccursAt(s, p, i)
  }

  /** The first index at or after `from` where `p` occurs in `s`. */
  function IndexFrom(s: string, p: string, from: nat): (r: Option<nat>)
    decreases |s| - from
    ensures r.Some? ==> from <= r.value && OccursAt(s, p, r.value)
    ensures r.Some? ==> forall j :: from <= j < r.value ==> !OccursAt(s, p, j)
    ensures r.None? ==> forall j :: from <= j ==> !OccursAt(s, p, j)
  {
    if from + |p| > |s| then None
    else if s[from..from + |p|] == p then Some(from)
    else IndexFrom(s, p, from + 1)
  }

  /**
    Ruby's `s.sub(p, r)` for a string pattern: the first occurrence of `p`,
    wherever it is, becomes `r`; without an occurrence `s` is returned as is.
  */
  function ReplaceFirst(s: string, p: string, r: string): (t: string)
    ensures !Contains(s, p) ==> t == s
    ensures Contains(s, p) ==>
              exists i :: OccursAt(s, p, i) && (forall j :: 0 <= j < i ==> !OccursAt(s, p, j))
                          && t == s[..i] + r + s[i + |p|..]
  {
    match IndexFrom(s, p, 0)
    case None => s
    case Some(i) => s[..i] + r + s[i + |p|..]
  }

  /** Replacing a pattern by itself changes nothing. */
  lemma ReplaceFirstSelf(s: string, p: string)
    ensures ReplaceFirst(s, p, p) == s
  {
    match IndexFrom(s, p, 0)
    case None =>
    case Some(i) =>
      calc {
        ReplaceFirst(s, p, p);
        s[..i] + p + s[i + |p|..];
        s[..i] + s[i..i + |p|] + s[i + |p|..];
        { assert s == s[..i] + s[i..i + |p|] + s[i + |p|..]; }
        s;
      }
  }

  /** When `s` starts with `p`, the first occurrence is the leading one. */
  lemma ReplaceFirstAtStart(s: string, p: string, r: string)
    requires StartsWith(s, p)
    ensures ReplaceFirst(s, p, r) == r + s[|p|..]
  {
    assert OccursAt(s, p, 0);
    assert IndexFrom(s, p, 0) == Some(0);
    assert s[..0] + r + s[|p|..] == r + s[|p|..];
  }

  /** A character absent from the subject and from the replacement is absent from the result. */
  lemma ReplaceFirstKeepsOut(s: string, p: string, r: string, c: char)
    requires c !in s && c !in r
    ensures c !in ReplaceFirst(s, p, r)
  {
    match IndexFrom(s, p, 0)
    case None =>
    case Some(i) =>
      assert c !in s[..i] && c !in s[i + |p|..];
  }

  /** Text before the first possible occurrence is kept: if `p` does not occur at any of the first `n` positions, the result starts with `s[..n]`. */
  lemma ReplaceFirstKeepsHead(s: string, p: string, r: string, n: nat)
    requires n <= |s| && forall j :: 0 <= j < n ==> !OccursAt(s, p, j)
    ensures var t := ReplaceFirst(s, p, r); n <= |t| && t[..n] == s[..n]
  {
    match IndexFrom(s, p, 0)
    case None =>
    case Some(i) =>
      assert OccursAt(s, p, i);
      assert n <= i;
      assert (s[..i] + r + s[i + |p|..])[..n] == s[..i][..n];
  }

  /** One mismatching character rules out an occurrence. */
  lemma MismatchAt(s: string, p: string, i: nat, k: nat)
    requires k < |p| && i + k < |s| && s[i + k] != p[k]
    ensures !OccursAt(s, p, i)
  {
    if i + |p| <= |s| {
      assert s[i..i + |p|][k] == s[i + k];
    }
  }

  /**
    Every field of `s` between separators, leading, inner and trailing empty
    fields included: `n` separators give `n + 1` fields.
  */
  function SplitAll(s: string, sep: char): (r: seq<string>)
    ensures |r| >= 1
    ensures forall k :: 0 <= k < |r| ==> sep !in r[k]
  {
    if s == [] then [[]]
    else
      var rest := SplitAll(s[1..], sep);
      if s[0] == sep then [[]] + rest
      else [[s[0]] + rest[0]] + rest[1..]
  }

  /** The longest prefix of `l` that does not end with an empty string. */
  function DropTrailingEmpty(l: seq<string>): (r: seq<string>)
    ensures |r| <= |l| && r == l[..|r|]
    ensures r == [] || r[|r| - 1] != []
    ensures forall k :: |r| <= k < |l| ==> l[k] == []
  {
    if l == [] then []
    else if l[|l| - 1] == [] then DropTrailingEmpty(l[..|l| - 1])
    else l
  }

  /** Ruby's `s.split(sep)` for a one-character separator: trailing empty fields are removed. */
  function Split(s: string, sep: char): (r: seq<string>)
    ensures forall k :: 0 <= k < |r| ==> sep !in r[k]
    ensures r == [] || r[|r| - 1] != []
  {
    DropTrailingEmpty(SplitAll(s, sep))
  }

  /** Ruby's `l.join(sep)`. */
  function Join(l: seq<string>, sep: char): string {
    if l == [] then []
    else if |l| == 1 then l[0]
    else l[0] + [sep] + Join(l[1..], sep)
  }

  /** The joined string starts with the first field and ends with the last; no fields give the empty string. */
  lemma {:induction false} JoinEnds(l: seq<string>, sep: char)
    ensures l == [] ==> Join(l, sep) == []
    ensures l != [] ==> StartsWith(Join(l, sep), l[0]) && EndsWith(Join(l, sep), l[|l| - 1])
  {
    if |l| > 1 {
      JoinEnds(l[1..], sep);
      var rest := Join(l[1..], sep);
      assert Join(l, sep) == l[0] + [sep] + rest;
      assert l[1..][|l[1..]| - 1] == l[|l| - 1];
      assert (l[0] + [sep] + rest)[|l[0] + [sep] + rest| - |l[|l| - 1]|..] == rest[|rest| - |l[|l| - 1]|..];
    }
  }

  lemma JoinCons(a: string, t: seq<string>, sep: char)
    requires t != []
    ensures Join([a] + t, sep) == a + [sep] + Join(t, sep)
  {
    assert ([a] + t)[1..] == t;
  }

  lemma {:induction false} JoinSnoc(a: seq<string>, b: string, sep: char)
    ensures Join(a + [b], sep) == if a == [] then b else Join(a, sep) + [sep] + b
  {
    if a == [] {
      assert a + [b] == [b];
    } else if |a| == 1 {
      assert a + [b] == [a[0]] + [b];
      JoinCons(a[0], [b], sep);
    } else {
      assert a + [b] == [a[0]] + (a[1..] + [b]);
      JoinCons(a[0], a[1..] + [b], sep);
      JoinSnoc(a[1..], b, sep);
    }
  }

  /** Joining every field back together gives the original string. */
  lemma {:induction false} JoinSplitAll(s: string, sep: char)
    ensures Join(SplitAll(s, sep), sep) == s
  {
    if s != [] {
      var rest := SplitAll(s[1..], sep);
      JoinSplitAll(s[1..], sep);
      if s[0] == sep {
        JoinCons([], rest, sep);
        assert s == [s[0]] + s[1..];
      } else if |rest| == 1 {
        assert s == [s[0]] + s[1..];
      } else {
        JoinCons([s[0]] + rest[0], rest[1..], sep);
        assert rest == [rest[0]] + rest[1..];
        JoinCons(rest[0], rest[1..], sep);
        assert s == [s[0]] + s[1..];
      }
    }
  }

  lemma {:induction false} SplitAllNoSep(s: string, sep: char)
    requires sep !in s
    ensures SplitAll(s, sep) == [s]
  {
    if s != [] {
      SplitAllNoSep(s[1..], sep);
      assert s == [s[0]] + s[1..];
    }
  }

  lemma {:induction false} SplitAllField(a: string, t: string, sep: char)
    requires sep !in a
    ensures SplitAll(a + [sep] + t, sep) == [a] + SplitAll(t, sep)
  {
    var s := a + [sep] + t;
    if a == [] {
      assert s[1..] == t;
    } else {
      assert s[1..] == a[1..] + [sep] + t;
      SplitAllField(a[1..], t, sep);
      assert [s[0]] + a[1..] == a;
    }
  }

  /** Splitting a join of separator-free fields gives the fields back. */
  lemma {:induction false} SplitAllJoin(l: seq<string>, sep: char)
    requires l != []
    requires forall k :: 0 <= k < |l| ==> sep !in l[k]
    ensures SplitAll(Join(l, sep), sep) == l
  {
    if |l| == 1 {
      SplitAllNoSep(l[0], sep);
    } else {
      SplitAllJoin(l[1..], sep);
      SplitAllField(l[0], Join(l[1..], sep), sep);
      assert l == [l[0]] + l[1..];
    }
  }

  /** Round trip one way: a list of separator-free fields whose last field is not empty survives `Join` then `Split`. */
  lemma SplitJoin(l: seq<string>, sep: char)
    requires forall k :: 0 <= k < |l| ==> sep !in l[k]
    requires l == [] || l[|l| - 1] != []
    ensures Split(Join(l, sep), sep) == l
  {
    if l != [] {
      SplitAllJoin(l, sep);
    }
  }

  lemma {:induction false} JoinDropTrailing(l: seq<string>, sep: char)
    ensures var j := Join(DropTrailingEmpty(l), sep);
            var s := Join(l, sep);
            |j| <= |s| && s[..|j|] == j && forall k :: |j| <= k < |s| ==> s[k] == sep
  {
    if l != [] && l[|l| - 1] == [] {
      var a := l[..|l| - 1];
      JoinDropTrailing(a, sep);
      assert l == a + [[]];
      JoinSnoc(a, [], sep);
    }
  }

  /** Round trip the other way: `Join(Split(s))` is `s` without its trailing separators, all of them. */
  lemma JoinSplit(s: string, sep: char)
    ensures var j := Join(Split(s, sep), sep);
            && |j| <= |s| && s[..|j|] == j && (forall k :: |j| <= k < |s| ==> s[k] == sep)
            && (j == [] || j[|j| - 1] != sep)
  {
    JoinSplitAll(s, sep);
    JoinDropTrailing(SplitAll(s, sep), sep);
    JoinLastNotSep(Split(s, sep), sep);
  }

  /** Joining separator-free fields whose last field is non-empty gives a string not ending in the separator. */
  lemma JoinLastNotSep(fields: seq<string>, sep: char)
    requires forall k :: 0 <= k < |fields| ==> sep !in fields[k]
    requires fields == [] || fields[|fields| - 1] != []
    ensures var j := Join(fields, sep); j == [] || j[|j| - 1] != sep
  {
    if fields != [] {
      JoinEnds(fields, sep);
      var j := Join(fields, sep);
      var last := fields[|fields| - 1];
      assert j[|j| - 1] == last[|last| - 1];
    }
  }
}

=== FILE: wrappers.dfy ===
/** Ruby's `nil`-or-value, as an Option. */
module Wrappers {

  datatype Option<+T> = None | Some(value: T)

}
